=== FILE: README.md ===
# Patent crew bookkeeping, in Dafny

The patent crew scripts send patents through a chain of LLM agents in batches. They
also prepare the knowledge base the agents read, and post-process what the agents
write. The agent work happens inside a framework and a hosted model. Around those
calls sits a layer of plain sequential bookkeeping, and this project models that
layer and proves properties of it. Three effects become inputs of the model:

- JSON parsing. Each JSONL line arrives as `Option<Value>`, where `None` means
  `json.loads` raised `JSONDecodeError`.
- The filesystem. Existence, directory listings and whether a write succeeds are
  predicates or sequences.
- The crew. A call returns normally or raises; the model takes that outcome as a
  function parameter.

Modules, one per script plus shared vocabulary:

| file | module | models |
|---|---|---|
| `base.dfy` | `Base` | `Option`, `Result`, `Min`, ceiling division |
| `text.dfy` | `Text` | the `str` operations the scripts use: `in`, `replace`, `"\n".join` (with a newline split as its inverse), `lower`, `isdigit`, `rsplit('.', 1)`, the `:03d` format spec, POSIX `os.path.join` / `isabs` |
| `seqs.dfy` | `Seqs`, `Batching` | filters, maps, a fold with skip/keep/stop steps, last-write-wins maps; `range(0, n, size)` slicing |
| `json.dfy` | `Json` | parsed JSON values, Python truthiness, `dict.get`, `{**d, k: v}`, iteration, `str()` |
| `sorting.dfy` | `Sorting` | `sorted()` on strings |
| `patent_input.dfy` | `PatentInputs` | the work-item dict handed to the crew |
| `async_main.dfy` | `AsyncMain` | `src/patent_crew/async_main.py` |
| `test_async_main.dfy` | `TestAsyncMain` | `src/patent_crew/test_async_main.py` |
| `crew_rewrite.dfy` | `CrewRewrite` | `src/patent_crew/crew_rewrite.py` |
| `setup_data.dfy` | `SetupData` | `setup_data.py` |
| `multi_image.dfy` | `MultiImage` | `tests/multi_image_analysis_crew.py` |
| `extract_json.dfy` | `ExtractJson` | `extract_json.py` |

A Python exception is modelled as a value wherever the code can raise one: a `Result`,
a `Stop` step of the fold, or an outcome constructor. Each operation keeps the code's
own choice of what to catch. The two batch runners differ here:

- The production loader in `async_main.py` catches nothing, so one malformed line fails
  the whole load. Its batch loop has one try per batch, so a raising batch is logged
  and the next one runs.
- The test loader in `test_async_main.py` skips malformed lines and stops at any other
  exception, keeping what it has. Its single try surrounds the whole batch loop, so
  the first raising batch ends the run.

Three behaviours of the code are easy to miss, and the model keeps them:

- The production loader does not skip a malformed index line: one such line fails the
  whole load (`AsyncMain.MalformedLineIsFatal`).
- In the test runner, the first raising batch ends the run (`TestAsyncMain.RunBatches`).
- The guardrail checks only string values, against one strict bound of 350 characters
  for every field. Its docstring speaks of 300.

## Model

| member | source | states |
|---|---|---|
| Batching.Chunk | src/patent_crew/async_main.py:98-101 | there are ceil(n / size) batches; every batch is non-empty and at most `size` long, and all but the last are exactly `size` |
| Batching.ChunkFlatten | src/patent_crew/async_main.py:98-101 | the batches, concatenated in order, give back the work list |
| Batching.ChunkSlices | src/patent_crew/async_main.py:99-100 | batch k is the slice `[k*size : min((k+1)*size, n)]` of the work list |
| Batching.ChunkPosition | src/patent_crew/test_async_main.py:120-123 | the item at position i is item `i % size` of batch `i // size` |
| Json.Set | src/patent_crew/async_main.py:120 | `{**d, k: v}`: looking up k gives v, every other key is unchanged, and a new key is added at the end |
| Text.Contains | src/patent_crew/crew_rewrite.py:115 | the left-to-right scan for `t in s` answers true exactly when t occurs at some position of s |
| Text.PathJoin | extract_json.py:47-50 | `os.path.join`: an absolute name replaces the root; otherwise root and name are joined with exactly one `/`, none added when the root is empty or already ends in `/`; the result always ends with the name |
| Text.SplitJoin | src/patent_crew/async_main.py:65 | splitting a newline-joined list of newline-free paths gives the list back |
| Text.Format03RoundTrip | tests/multi_image_analysis_crew.py:199 | the `03d` rendering is all digits, three long below 1000, and parses back to the number |
| Sorting.Sort | setup_data.py:216 | the result is sorted in code-point lexicographic order and is a permutation of the input |
| AsyncMain.PdfPathFor | src/patent_crew/async_main.py:59 | the PDF path ends in `.pdf`; it is the path cut at its last `.`, or the whole path when there is no `.` |
| AsyncMain.PdfPathReplacesExtension | src/patent_crew/async_main.py:59 | a path `stem + ".ext"` with no further dot becomes `stem + ".pdf"` |
| Seqs.Filter | src/patent_crew/async_main.py:61-63 | a list comprehension with a condition keeps an order-preserving sub-list of its input, holding each element that meets the condition as often as the input does and no other element |
| Seqs.FilterUnique | src/patent_crew/async_main.py:61-63 | those order and count properties determine the comprehension's result: any sub-list of the input with them is that result |
| AsyncMain.ExistingAbsolutePaths | src/patent_crew/async_main.py:61-63 | the kept paths are an order-preserving sub-list of the listed ones, holding each absolute, existing path as often as the list does and no other path |
| AsyncMain.ReadRecord | src/patent_crew/async_main.py:54-73 | a record is kept iff it is complete: a truthy publication number, a truthy string JSON path, and an image list (or no such key, read as `[]`) that iterates to strings; it is dropped iff its publication number or JSON path is falsy; a non-string JSON path, a non-iterable image list or a non-string image path raises; a kept record carries both values unchanged, and its image paths are exactly the absolute existing ones of the listed image list |
| AsyncMain.ClassifyLine | src/patent_crew/async_main.py:52-56 | a malformed line raises `JSONDecodeError` and a non-object line raises on `.get` |
| AsyncMain.LoadLinesFacts | src/patent_crew/async_main.py:51-75 | a successful load saw only well-formed object lines and returns at most one work item per line, each satisfying the loader's guarantees |
| AsyncMain.LoadIndex | src/patent_crew/async_main.py:44-75 | a missing index is a `FileNotFoundError`, not an empty list; a successful load returns only loaded work items |
| AsyncMain.LoadLinesAppend | src/patent_crew/async_main.py:51-73 | loading two parts of an index in turn is loading the whole: kept records stay in line order and the first error wins |
| AsyncMain.IncompleteRecordDropped | src/patent_crew/async_main.py:58 | a record without a truthy publication number or JSON path leaves the load as if the line were absent |
| AsyncMain.MalformedLineIsFatal | src/patent_crew/async_main.py:53 | a malformed line anywhere makes the load fail |
| AsyncMain.CompleteRecordDerivedFields | src/patent_crew/async_main.py:58-73 | a complete record becomes a work item with the derived PDF path, the filtered image list, and that list joined by newlines |
| AsyncMain.TagBatch | src/patent_crew/async_main.py:120 | every tagged input has `batch_idx` set to the batch index; all other keys keep their values and order |
| AsyncMain.RunBatches | src/patent_crew/async_main.py:106-132 | batches are attempted in index order, each tagged with its index, up to min(#batches, cap); a failing crew call does not stop the later batches, but a raising set-up (directory or session, outside the `try`) ends the loop at that batch |
| AsyncMain.RunAsync | src/patent_crew/async_main.py:93-132 | a load error ends the run with that same error; otherwise attempt k runs slice `[5k : 5k+5]` of the work list, for every k below min(ceil(n/5), 2) unless a batch set-up raises first, which ends the run at that batch |
| TestAsyncMain.ReadRecord | src/patent_crew/test_async_main.py:54-82 | a record is kept iff it is complete: a truthy publication number and JSON path, and an image list that iterates to strings; it is dropped iff a required field is falsy; a non-iterable image list or a non-string image path raises; a kept record carries the publication number and JSON path unchanged and the iterated image list unfiltered, joined by newlines |
| TestAsyncMain.ClassifyLine | src/patent_crew/test_async_main.py:53-87 | a malformed line is skipped and a non-object line raises |
| TestAsyncMain.LoadLinesLoaded | src/patent_crew/test_async_main.py:50-92 | the tolerant load returns at most one item per line, each satisfying its guarantees |
| TestAsyncMain.LoadIndex | src/patent_crew/test_async_main.py:40-92 | a missing index gives an empty list, never an error |
| TestAsyncMain.MalformedLineSkipped | src/patent_crew/test_async_main.py:83-85 | a malformed line changes nothing: the load continues with the following lines |
| TestAsyncMain.NonObjectLineTruncates | src/patent_crew/test_async_main.py:86-87 | a line that is valid JSON but not an object ends the load, keeping what came before it |
| TestAsyncMain.CompleteRecordsAllLoaded | src/patent_crew/test_async_main.py:62-82 | when every line is an object holding a complete record, one input per line is loaded, in order, with that line's publication number and JSON path |
| TestAsyncMain.ImagePathStrRoundTrip | src/patent_crew/test_async_main.py:75 | `image_path_str` splits back into the image list when no path contains a newline |
| TestAsyncMain.ExpectedOutputFile | src/patent_crew/test_async_main.py:182 | the expected output file always ends in `_output.json` |
| TestAsyncMain.ExpectedOutputFilePlacement | src/patent_crew/test_async_main.py:182 | the expected file ends in `<publication_number>_output.json`; it is `output/<category>/<publication_number>_output.json` for a plain category and a relative number, and the number's own absolute path when the number starts with `/` |
| TestAsyncMain.RunBatches | src/patent_crew/test_async_main.py:138-163 | every batch runs in index order, with its index, and with no cap, until one raises; without a raise the results are the in-order concatenation of the batch results |
| TestAsyncMain.CheckOutputs | src/patent_crew/test_async_main.py:175-186 | result i is checked against input i only for i below both counts, each against the expected output file |
| TestAsyncMain.RunAsync | src/patent_crew/test_async_main.py:109-193 | no inputs return early; a raising batch aborts the run after all earlier batches returned; otherwise every result up to the input count gets an output check |
| CrewRewrite.FirstTooLong | src/patent_crew/crew_rewrite.py:42-45 | finds the first field, in iteration order, whose value is a string longer than 350 |
| CrewRewrite.EnsureOutputLength | src/patent_crew/crew_rewrite.py:34-51 | unparseable output is rejected with the decoder's message; a parsed object passes iff no string field exceeds 350 and then comes back unchanged; a rejection names the first offending key; a non-object raises |
| CrewRewrite.LengthLimitBoundary | src/patent_crew/crew_rewrite.py:43 | a 350-character string passes and a 351-character one fails |
| CrewRewrite.TruncatedAnswerPasses | src/patent_crew/crew_rewrite.py:42-47 | an answer with every string cut to 350 characters always passes |
| CrewRewrite.NonStringsUnchecked | src/patent_crew/crew_rewrite.py:43 | adding a non-string field never changes the verdict |
| CrewRewrite.OutputFilename | src/patent_crew/crew_rewrite.py:133 | a name without `_output.json` is left unchanged |
| CrewRewrite.OutputFilenameSuffix | src/patent_crew/crew_rewrite.py:133 | a name ending in `_output.json` becomes a different name ending in `_output_short.json` |
| CrewRewrite.FindJsonFiles | src/patent_crew/crew_rewrite.py:93-95 | the found files are an order-preserving sub-list of the listing, holding each path ending in `_output.json` as often as the listing does and no other path |
| CrewRewrite.SkipRule | src/patent_crew/crew_rewrite.py:115-116 | with no target nothing is skipped; with a target a file is skipped iff the target occurs nowhere in its path |
| CrewRewrite.DataToSave | src/patent_crew/crew_rewrite.py:135-149 | a non-empty dict is saved as that dict; a non-empty string that parses to a truthy value is saved as that value; an empty dict, empty text, unparseable text, a falsy parse or no result saves nothing |
| CrewRewrite.ProcessFiles | src/patent_crew/crew_rewrite.py:114-157 | the writes are the qualifying files (not skipped, with data to save, output writable) in listing order, one write each of its short name and data; every write comes from an unskipped file with data to save whose output file could be written, under its short name; every such file is written, and a failed write is caught and skipped |
| CrewRewrite.ProcessStep | src/patent_crew/crew_rewrite.py:114-157 | one more file extends the filtered writes by that file's write exactly when it qualifies |
| CrewRewrite.WritesFacts | src/patent_crew/crew_rewrite.py:114-157 | the in-order writes number at most the files, each comes from a qualifying file, and each qualifying file has its write among them |
| SetupData.ClassifyLine | setup_data.py:112-120 | a malformed line or a falsy publication number is skipped; a non-object line, or a truthy list or dict publication number, ends the load; any other truthy publication number stores the record under it |
| SetupData.LoadAll | setup_data.py:102-106 | a missing input file gives an empty map |
| SetupData.LoadLinesSnoc | setup_data.py:110-117 | one more stored line sets its key and leaves every other entry alone |
| SetupData.LaterLineOverwrites | setup_data.py:113-115 | a later line with the same publication number overwrites the earlier record |
| SetupData.InvalidLineSkipped | setup_data.py:118-120 | an invalid JSON line changes nothing, wherever it is |
| SetupData.MissingPublicationNumberSkipped | setup_data.py:114-117 | a record without a truthy publication number changes nothing, wherever it is |
| SetupData.StoppingLineTruncates | setup_data.py:111-122 | a non-object line or a list or dict publication number ends the load: later lines are never read, earlier ones stay |
| SetupData.LoadLinesLastWins | setup_data.py:108-124 | the loaded map equals the independent last-line-wins map over the lines |
| SetupData.LookupFindsLastLine | setup_data.py:113-115 | a number is in the map iff some line stores it, and it maps to the last such line's record |
| SetupData.PathSuffix | setup_data.py:172 | `Path.suffix` is empty or a dot-led tail of the name, at least two long, with no other dot |
| SetupData.PathSuffixSpec | setup_data.py:172 | `Path.suffix` is non-empty iff the name's last dot is neither its first nor its last character, and then it is the name from that dot on |
| SetupData.DottedNameParts | setup_data.py:172 | a non-empty stem and a non-empty extension without dots, joined by a dot, split back into that stem and `.` + extension |
| SetupData.PathStem | setup_data.py:172 | stem plus suffix is the name |
| SetupData.NumberedImageNames | setup_data.py:172 | `<digits>.png` in any letter case is a numbered image |
| SetupData.NonNumericStemRejected | setup_data.py:169-174 | a file whose stem is not all digits is selected only if it is the patent's PDF |
| SetupData.CopiedFiles | setup_data.py:168-174 | the copied files are an order-preserving sub-list of the listing, holding each selected file as often as the listing does and no other file |
| SetupData.CountCopied | setup_data.py:163-174 | `files_copied_count` ends equal to the number of selected files |
| SetupData.ProcessedPubs | setup_data.py:158-195 | a number is processed iff it names a sub-directory that copied cleanly, has truthy data in the map and had its JSON written |
| SetupData.ProcessedPubsInOrder | setup_data.py:158-195 | the processed numbers are exactly the names of those sub-directories in `iterdir` order, one per such entry, as an independent filter-then-map computes them |
| SetupData.NumberedImages | setup_data.py:208-210 | the numbered images are an order-preserving sub-list of the listing, holding each numbered image name as often as the listing does and no other name |
| SetupData.ImagePaths | setup_data.py:206-210 | one path per numbered image, under the patent directory |
| SetupData.SortedImagePaths | setup_data.py:216 | the image list is sorted and is a permutation of the collected paths |
| SetupData.EntryFields | setup_data.py:212-217 | a summary entry has exactly the four keys, in order, holding the given values |
| SetupData.SummaryEntry | setup_data.py:201-217 | the JSON and PDF paths are null when the file is absent, and the image paths are sorted |
| SetupData.Synchronize | setup_data.py:137-229 | an empty map ends the sync first, then a failed knowledge directory, then a missing source directory; otherwise the processed patents are `ProcessedPubs` of the listing, in order; no summary without a processed patent, else entry i is the summary entry of processed patent i, with its paths and sorted images; the summary file is written iff some patent was processed and its write succeeds, and a failed write is caught |
| MultiImage.CreateImageBatch | tests/multi_image_analysis_crew.py:144-148 | the batch has exactly the keys `id` and `img_paths_str` (patent format) or `img_list` |
| MultiImage.CreatePatentBatch | tests/multi_image_analysis_crew.py:150-164 | equals the patent-format image batch |
| MultiImage.ImageListOf | tests/multi_image_analysis_crew.py:223 | a truthy `img_list` wins; otherwise the value of `img_paths_str` when that key is present, and `[]` when it is missing |
| MultiImage.ImageListRoundTrip | tests/multi_image_analysis_crew.py:144-148 | the batch loop reads back the id and the non-empty image list a batch was created with, in either format |
| MultiImage.FirstMissing | tests/multi_image_analysis_crew.py:122-124 | finds the first element that is not a path argument or does not exist; every earlier one is an existing path |
| MultiImage.RunMultiImageAnalysis | tests/multi_image_analysis_crew.py:118-130 | an empty list raises `ValueError`; the first element that stops validation raises `TypeError` when it is null, a list or a dict, and otherwise `FileNotFoundError` naming it; otherwise the crew's answer is returned |
| MultiImage.ImagesInSpec | tests/multi_image_analysis_crew.py:187-189 | a directory's image files are its names with an image extension, in listing order and with repeats, each joined to the directory |
| MultiImage.ImageFilesAppend | tests/multi_image_analysis_crew.py:186-189 | the walk order is kept: images of earlier directories come first |
| MultiImage.ImageFilesSpec | tests/multi_image_analysis_crew.py:186-189 | every walked file with an image extension is listed |
| MultiImage.ImageFilesOnlyImages | tests/multi_image_analysis_crew.py:186-189 | every listed path is a walked file with an image extension |
| MultiImage.BatchIdsDistinct | tests/multi_image_analysis_crew.py:199 | different batches get different ids |
| MultiImage.CreateBatchesFromDirectory | tests/multi_image_analysis_crew.py:178-203 | a missing directory raises; no images gives `[]`; otherwise batch k holds chunk k of the images under id `auto_batch_` + (k+1) as three digits |
| MultiImage.DirectoryBatchesCoverImages | tests/multi_image_analysis_crew.py:196-200 | reading the image lists back from the batches gives every discovered image, in order |
| MultiImage.ErrorMessage | tests/multi_image_analysis_crew.py:248 | a recorded error starts with the error marker |
| MultiImage.BatchStep | tests/multi_image_analysis_crew.py:219-250 | a batch is skipped iff its id is falsy or its image list is empty; a truthy number or boolean list ends the loop on `len()` before the `try`; a list or dict id ends it on the key assignment; any other batch records its result or error under its id |
| MultiImage.RunMultipleImageBatches | tests/multi_image_analysis_crew.py:205-252 | the loop raises iff some batch ends it, and then with the first such batch's error; otherwise the results are the dictionary filled by `results[id] = text` over the batches in order, skipped batches writing nothing |
| MultiImage.ResultsHoldLastRunBatch | tests/multi_image_analysis_crew.py:216-250 | an id is in the results iff some batch with that id is run, and it holds the outcome of the last such batch |
| MultiImage.SkippedBatchLeavesNoEntry | tests/multi_image_analysis_crew.py:225-231 | a skipped batch leaves no trace in the results |
| MultiImage.LaterBatchOverwrites | tests/multi_image_analysis_crew.py:239-250 | a run batch sets its id to its outcome, overwriting an earlier batch with that id |
| MultiImage.RecordedTextIsResultOrError | tests/multi_image_analysis_crew.py:239-250 | the recorded text is the crew's answer, or an error message starting with the marker |
| MultiImage.RunPatentAnalysis | tests/multi_image_analysis_crew.py:290-302 | raises `ValueError` iff no value has both `id` and `img_paths_str`; otherwise runs the batch loop on exactly the values with both keys, in order |
| ExtractJson.ClassifyLine | extract_json.py:37-44 | an undecodable line or a non-matching object is skipped; a matching object stops the search with that record; a non-object raises |
| ExtractJson.SearchStopsAtFirst | extract_json.py:36-41 | the search reads on iff every line is skipped, and otherwise stops at the first line that stops it |
| ExtractJson.SearchFound | extract_json.py:36-46 | the search reads every line iff all are skipped; it ends on a match iff the first stopping line is a matching object, and on an error iff that line is not an object |
| ExtractJson.FoundRecordIsTruthy | extract_json.py:39-46 | the matched record is non-empty, so the `if found_patent_data` test passes |
| ExtractJson.ExtractAndSave | extract_json.py:30-61 | a missing input is reported as input-not-found, and so is a `FileNotFoundError` from the output write; a file is saved iff the first stopping line matches and the write succeeds, at the output path with that record; not-found iff every line is skipped; any other write error or a non-object line fails |
| ExtractJson.FirstMatchWins | extract_json.py:36-41 | the first matching record is saved whatever follows it |
| ExtractJson.UndecodableLineSkipped | extract_json.py:42-44 | an undecodable line does not change the outcome |
| ExtractJson.NonObjectLineFails | extract_json.py:39 | a non-object line before any match ends the run with an error |
| ExtractJson.OutputPath | extract_json.py:47-50 | the output path ends in `<pub>.json` |
| ExtractJson.OutputPathShape | extract_json.py:47-50 | with a normalised base, the output path is `base/<pub>/<pub>.json` |
| ExtractJson.RunScript | extract_json.py:63-69 | the extractor runs iff no configuration value is empty |

## Left out

- JSON parsing and serialisation. Lines arrive parsed; the `indent` and layout of `json.dump` are not modelled.
- JSON floats. `Value` has integers only.
- `Json.Obj` admits repeated keys. Parsed objects from `json.loads` keep only the last value for a key, and `Get` returns the first; the lines the model is given are assumed to have no repeated key.
- Python's `1 == True` key equality is not modelled. Dict keys and equality are structural on `Value`.
- Filesystem effects: `mkdir`, `shutil.copy2`, `glob`, `os.walk`, `open`, `iterdir`. They are inputs: listings as sequences, and success or existence as predicates. A write that fails part-way may leave a partial file behind; the model records only whether the write returned normally.
- `os.path.abspath` and `Path.resolve` normalisation. Paths are taken as already normalised.
- Glob's hidden-file rule and recursion order. `FindJsonFiles` filters a listing given as input.
- The crew: agent, task and LLM construction, `kickoff`, `kickoff_for_each_async`. They are the abstract `execute`, `run` and `crew` parameters. This also leaves out `create_multi_image_analysis_crew`, which only builds framework objects.
- `asyncio.sleep` pacing, agentops sessions, and `time.monotonic` averages. They are timing and telemetry.
- All `print` output, including the guardrail's log lines.
- `validate_paths` and the `__main__` block of `setup_data.py`. They are two existence checks before the sync; the sync's own checks are modelled.
- `save_batch_results`. A Dafny `map` does not keep the insertion order the report is written in.
- The `__main__` examples of `tests/multi_image_analysis_crew.py`. They only print sample batches.
- The `__main__` loop setup of `crew_rewrite.py`: the `makedirs` of the output directory and the count messages.
- `src/patent_crew/tools/custom_tool.py` and `compile_result.py` are not part of this model. The first wraps file reading; the second holds only configuration.
- Lower-casing and `isdigit` are ASCII only. Python's Unicode case mapping and digit classes are wider.
- `Json.Show` renders strings without `repr` escaping, and other values in a simplified form.
- TestAsyncMain.ReadRecord: when the image list is a dict or a string, the source stores that raw value as `absolute_image_paths`. The model stores the strings iteration yields, and states the raw-value equality only for lists.
- TestAsyncMain.RunBatches: a batch returning `None` instead of a list is not modelled; a returned list may be empty.
- MultiImage.RunMultipleImageBatches: batches are assumed to be dicts. A non-dict batch, which would raise on `.get`, is not modelled.
- MultiImage.RunPatentAnalysis: the values of the patents dict are assumed to be dicts.
- MultiImage.BatchStep: for a list or dict id the crew still runs before the key assignment raises; the model records only the resulting error.
- TestAsyncMain.ExpectedOutputFile: pathlib's normalisation (collapsing `//`, dropping `.` components and a trailing `/`) is not modelled; the join follows the `os.path.join` rules, and the exact path is stated only for a category that neither starts nor ends with `/`.
- MultiImage.RunMultiImageAnalysis: the text of a `TypeError` for a non-iterable list is a placeholder, not Python's message; for a non-path element the contract states the `TypeError` kind, not its text.
- CrewRewrite.EnsureOutputLength: a `raw` that is not a string (a `TypeError` in `json.loads`) is not modelled.
- The shipped configuration values (`TARGET_PATENT_NUMBER` of `crew_rewrite.py`, the default `batch_size=5` of `create_batches_from_directory`, and the three configured values of `extract_json.py`) are parameters of the model rather than fixed values.
- ExtractJson.ExtractAndSave: the input is either the file's lines or `None`, and `None` stands only for a missing file. Other failures to open or read the input (a directory, missing permission, a decode error) reach the general `except` and give a failure; the model does not cover them.
- CrewRewrite.ProcessFiles: reading the file and the crew call are one abstract `run`. Any exception they raise counts as "nothing to save", as the loop's `except` does.

=== FILE: async_main.dfy ===
/**
 * The production batch runner: loads the category index, cuts the work items into
 * batches of five, and runs at most two batches, each inside its own try/except.
 */
module AsyncMain {
  import opened Base
  import opened Text
  import opened Json
  import opened Seqs
  import opened Batching
  import opened PatentInputs

  const BatchSize: nat := 5
  const MaxBatchesToProcess: nat := 2

  /** The exceptions that escape the production loader (it catches none of them). */
  datatype LoadError =
    | IndexNotFound   // FileNotFoundError: the category index file is missing
    | InvalidJson     // JSONDecodeError from a malformed line
    | NotAnObject     // AttributeError: `.get` on a line that is not a JSON object
    | BadField        // AttributeError/TypeError: a non-string path, or an image list of non-strings

  /** `json_path_str.rsplit('.', 1)[0] + '.pdf'`: everything from the last `.` is replaced by `.pdf`. */
  function PdfPathFor(jsonPath: string): (r: string)
    ensures EndsWith(r, ".pdf")
    ensures '.' !in jsonPath ==> r == jsonPath + ".pdf"
    ensures '.' in jsonPath ==> exists i :: 0 <= i < |jsonPath| && jsonPath[i] == '.' &&
                                           '.' !in jsonPath[i + 1..] && r == jsonPath[..i] + ".pdf"
  {
    match LastIndexOf(jsonPath, '.')
    case None => jsonPath + ".pdf"
    case Some(i) => jsonPath[..i] + ".pdf"
  }

  /** A path `stem + ext`, where `ext` is a dot and then no other dot, becomes `stem + ".pdf"`. */
  lemma {:induction false} PdfPathReplacesExtension(stem: string, ext: string)
    requires |ext| > 0 && ext[0] == '.' && '.' !in ext[1..]
    ensures PdfPathFor(stem + ext) == stem + ".pdf"
  {
    var p := stem + ext;
    assert p[|stem|] == '.';
    assert forall j :: |stem| < j < |p| ==> p[j] == ext[1..][j - |stem| - 1];
    var i := LastIndexOf(p, '.').value;
    assert p[..|stem|] == stem;
  }

  /** `[p for p in paths if os.path.isabs(p) and os.path.pathExists(p)]`. */
  function ExistingAbsolutePaths(paths: seq<string>, pathExists: string -> bool): (r: seq<string>)
    ensures |r| <= |paths|
    ensures forall i :: 0 <= i < |r| ==> r[i] in paths && IsAbsPath(r[i]) && pathExists(r[i])
    ensures forall i :: 0 <= i < |paths| && IsAbsPath(paths[i]) && pathExists(paths[i]) ==> paths[i] in r
    ensures Subsequence(r, paths)
    ensures forall i :: 0 <= i < |paths| ==>
              multiset(r)[paths[i]] == if IsAbsPath(paths[i]) && pathExists(paths[i]) then multiset(paths)[paths[i]] else 0
  {
    Filter(paths, (p: string) => IsAbsPath(p) && pathExists(p))
  }

  /** What the production loader guarantees of every work item it returns. */
  predicate Loaded(p: PatentInput, category: string, pathExists: string -> bool) {
    && Truthy(p.publicationNumber)
    && p.jsonFilePath.Str?
    && p.category == category
    && p.pdfFilePath == Some(PdfPathFor(p.jsonFilePath.s))
    && p.imagePathStr == Join("\n", p.absoluteImagePaths)
    && forall i :: 0 <= i < |p.absoluteImagePaths| ==>
         IsAbsPath(p.absoluteImagePaths[i]) && pathExists(p.absoluteImagePaths[i])
  }

  /**
   * A record the loader keeps: truthy publication number and JSON path, the path a string
   * (`rsplit` needs one), and an image list (`[]` when missing) that iterates to strings.
   */
  predicate CompleteRecord(fields: Fields) {
    && Truthy(GetOrNull(fields, "publication_number"))
    && Truthy(GetOrNull(fields, "json_file_path"))
    && GetOrNull(fields, "json_file_path").Str?
    && Iterate(ImageList(fields)).Some?
    && AsStrings(Iterate(ImageList(fields)).value).Some?
  }

  /** What the loader does with one parsed index object. */
  function ReadRecord(fields: Fields, category: string, pathExists: string -> bool): (r: Step<PatentInput, LoadError>)
    ensures r.Keep? <==> CompleteRecord(fields)
    ensures r.Skip? <==> !Truthy(GetOrNull(fields, "publication_number")) || !Truthy(GetOrNull(fields, "json_file_path"))
    ensures r.Keep? ==> Loaded(r.item, category, pathExists)
    ensures r.Keep? ==> r.item.publicationNumber == GetOrNull(fields, "publication_number")
    ensures r.Keep? ==> r.item.jsonFilePath == GetOrNull(fields, "json_file_path")
    ensures r.Stop? ==> r.reason == BadField
    ensures Truthy(GetOrNull(fields, "publication_number")) && Truthy(GetOrNull(fields, "json_file_path")) &&
            (!GetOrNull(fields, "json_file_path").Str? || Iterate(ImageList(fields)).None? ||
             AsStrings(Iterate(ImageList(fields)).value).None?) ==>
              r == Stop(BadField)
    ensures r.Keep? ==>
              && Iterate(ImageList(fields)).Some?
              && AsStrings(Iterate(ImageList(fields)).value).Some?
              && r.item.absoluteImagePaths ==
                 ExistingAbsolutePaths(AsStrings(Iterate(ImageList(fields)).value).value, pathExists)
  {
    var pub := GetOrNull(fields, "publication_number");
    var jsonPath := GetOrNull(fields, "json_file_path");
    if !(Truthy(pub) && Truthy(jsonPath)) then Skip
    else if !jsonPath.Str? then Stop(BadField)
    else match Iterate(ImageList(fields))
      case None => Stop(BadField)
      case Some(items) =>
        match AsStrings(items)
        case None => Stop(BadField)
        case Some(paths) =>
          var kept := ExistingAbsolutePaths(paths, pathExists);
          Keep(PatentInput(pub, jsonPath, category, kept, Join("\n", kept), Some(PdfPathFor(jsonPath.s))))
  }

  /** What the loader does with one line of the index file. */
  function ClassifyLine(line: Line, category: string, pathExists: string -> bool): (r: Step<PatentInput, LoadError>)
    ensures line.None? ==> r == Stop(InvalidJson)
    ensures line.Some? && !line.value.Obj? ==> r == Stop(NotAnObject)
    ensures r.Keep? ==> Loaded(r.item, category, pathExists)
  {
    match line
    case None => Stop(InvalidJson)
    case Some(Obj(fields)) => ReadRecord(fields, category, pathExists)
    case Some(_) => Stop(NotAnObject)
  }

  /** The loader's decision for every line of the index, in file order. */
  function LineSteps(lines: seq<Line>, category: string, pathExists: string -> bool): (r: seq<Step<PatentInput, LoadError>>)
    ensures |r| == |lines|
    ensures forall i :: 0 <= i < |lines| ==> r[i] == ClassifyLine(lines[i], category, pathExists)
  {
    seq(|lines|, i requires 0 <= i < |lines| => ClassifyLine(lines[i], category, pathExists))
  }

  lemma {:induction false} LineStepsAppend(a: seq<Line>, b: seq<Line>, category: string, pathExists: string -> bool)
    ensures LineSteps(a + b, category, pathExists) == LineSteps(a, category, pathExists) + LineSteps(b, category, pathExists)
  {
    var l, la, lb := LineSteps(a + b, category, pathExists), LineSteps(a, category, pathExists), LineSteps(b, category, pathExists);
    forall i | 0 <= i < |a|
      ensures l[i] == la[i]
    {
      assert (a + b)[i] == a[i];
    }
    forall i | 0 <= i < |b|
      ensures l[|a| + i] == lb[i]
    {
      assert (a + b)[|a| + i] == b[i];
    }
    PointwiseAppend(l, la, lb);
  }

  function LoadLines(lines: seq<Line>, category: string, pathExists: string -> bool): Result<seq<PatentInput>, LoadError> {
    var r := Scan(LineSteps(lines, category, pathExists));
    match r.stopped
    case Some(e) => Err(e)
    case None => Ok(r.items)
  }

  /** Every item a successful load returns satisfies `Loaded`, and no line was malformed or a non-object. */
  lemma {:induction false} LoadLinesFacts(lines: seq<Line>, category: string, pathExists: string -> bool)
    requires LoadLines(lines, category, pathExists).Ok?
    ensures forall i :: 0 <= i < |lines| ==> lines[i].Some? && lines[i].value.Obj?
    ensures |LoadLines(lines, category, pathExists).value| <= |lines|
    ensures forall x :: x in LoadLines(lines, category, pathExists).value ==> Loaded(x, category, pathExists)
  {
    var steps := LineSteps(lines, category, pathExists);
    forall i | 0 <= i < |lines|
      ensures lines[i].Some? && lines[i].value.Obj?
    {
      assert !steps[i].Stop?;
    }
    forall x | x in Scan(steps).items
      ensures Loaded(x, category, pathExists)
    {
      assert Keep(x) in steps;
      var j :| 0 <= j < |steps| && steps[j] == Keep(x);
    }
  }

  /**
   * `get_patent_metadadata`: the index file is `None` when it does not exist. Every
   * exception escapes, so one malformed line fails the whole load.
   */
  function LoadIndex(index: Option<seq<Line>>, category: string, pathExists: string -> bool): (r: Result<seq<PatentInput>, LoadError>)
    ensures index.None? ==> r == Err(IndexNotFound)
    ensures r.Ok? ==> index.Some? && forall i :: 0 <= i < |index.value| ==> index.value[i].Some? && index.value[i].value.Obj?
    ensures r.Ok? ==> |r.value| <= |index.value|
    ensures r.Ok? ==> forall i :: 0 <= i < |r.value| ==> Loaded(r.value[i], category, pathExists)
  {
    match index
    case None => Err(IndexNotFound)
    case Some(lines) =>
      var r := LoadLines(lines, category, pathExists);
      if r.Ok? then LoadLinesFacts(lines, category, pathExists); r else r
  }

  /** Loading two pieces of an index one after the other is loading their concatenation: kept records stay in line order. */
  lemma {:induction false} LoadLinesAppend(a: seq<Line>, b: seq<Line>, category: string, pathExists: string -> bool)
    ensures LoadLines(a + b, category, pathExists) ==
            match LoadLines(a, category, pathExists)
            case Err(e) => Err(e)
            case Ok(xs) =>
              match LoadLines(b, category, pathExists)
              case Err(e) => Err(e)
              case Ok(ys) => Ok(xs + ys)
  {
    LineStepsAppend(a, b, category, pathExists);
    ScanAppend(LineSteps(a, category, pathExists), LineSteps(b, category, pathExists));
  }

  /** A record without a truthy `publication_number` or `json_file_path` is dropped without a trace. */
  lemma {:induction false} IncompleteRecordDropped(a: seq<Line>, fields: Fields, b: seq<Line>, category: string, pathExists: string -> bool)
    requires !Truthy(GetOrNull(fields, "publication_number")) || !Truthy(GetOrNull(fields, "json_file_path"))
    ensures LoadLines(a + [Some(Obj(fields))] + b, category, pathExists) == LoadLines(a + b, category, pathExists)
  {
    var x: Line := Some(Obj(fields));
    LineStepsAppend(a + [x], b, category, pathExists);
    LineStepsAppend(a, [x], category, pathExists);
    LineStepsAppend(a, b, category, pathExists);
    assert LineSteps([x], category, pathExists) == [Skip];
    ScanSkip(LineSteps(a, category, pathExists), LineSteps(b, category, pathExists));
  }

  /** The production loader does not skip a malformed line: the load fails. */
  lemma {:induction false} MalformedLineIsFatal(a: seq<Line>, b: seq<Line>, category: string, pathExists: string -> bool)
    ensures LoadLines(a + [None] + b, category, pathExists).Err?
  {
    var x: Line := None;
    LineStepsAppend(a + [x], b, category, pathExists);
    LineStepsAppend(a, [x], category, pathExists);
    assert LineSteps([x], category, pathExists) == [Stop(InvalidJson)];
    ScanStop(LineSteps(a, category, pathExists), InvalidJson, LineSteps(b, category, pathExists));
  }

  /** The record derived from one complete index line: its PDF path, its filtered and joined image list. */
  lemma {:induction false} CompleteRecordDerivedFields(fields: Fields, pub: Value, jsonPath: string, paths: seq<string>,
                                    category: string, pathExists: string -> bool)
    requires Get(fields, "publication_number") == Some(pub) && Truthy(pub)
    requires Get(fields, "json_file_path") == Some(Str(jsonPath)) && |jsonPath| > 0
    requires Get(fields, "image_file_paths") == Some(Arr(Strs(paths)))
    ensures var kept := ExistingAbsolutePaths(paths, pathExists);
            ClassifyLine(Some(Obj(fields)), category, pathExists) ==
              Keep(PatentInput(pub, Str(jsonPath), category, kept, Join("\n", kept), Some(PdfPathFor(jsonPath))))
  {
    AsStringsOfStrs(paths);
    var kept := ExistingAbsolutePaths(paths, pathExists);
    assert GetOrNull(fields, "publication_number") == pub;
    assert GetOrNull(fields, "json_file_path") == Str(jsonPath);
    assert Truthy(Str(jsonPath));
    assert ImageList(fields) == Arr(Strs(paths));
    assert Iterate(ImageList(fields)) == Some(Strs(paths));
    assert AsStrings(Strs(paths)) == Some(paths);
    assert ReadRecord(fields, category, pathExists) ==
           Keep(PatentInput(pub, Str(jsonPath), category, kept, Join("\n", kept), Some(PdfPathFor(jsonPath))));
  }

  /** `{**patent_input, 'batch_idx': batch_idx}` for every input of one batch. */
  function TagBatch(batch: seq<Fields>, batchIdx: nat): (r: seq<Fields>)
    ensures |r| == |batch|
    ensures forall i :: 0 <= i < |batch| ==> Get(r[i], "batch_idx") == Some(Num(batchIdx))
    ensures forall i, k :: 0 <= i < |batch| && k != "batch_idx" ==> Get(r[i], k) == Get(batch[i], k)
    ensures forall i :: 0 <= i < |batch| && !HasKey(batch[i], "batch_idx") ==> Keys(r[i]) == Keys(batch[i]) + ["batch_idx"]
  {
    MapSeq(batch, (d: Fields) => Set(d, "batch_idx", Num(batchIdx)))
  }

  /** One iteration of the batch loop: the batch index, the tagged inputs, and whether the crew call returned normally. */
  datatype Attempt = Attempt(batchIdx: nat, inputs: seq<Fields>, succeeded: bool)

  /**
   * How the batch loop ends: the batches it ran, and whether the set-up of the next
   * batch raised. That set-up (creating `output/{batch_idx}` and starting the session)
   * sits before the `try`, so its exception ends the run.
   */
  datatype BatchRun = BatchRun(attempts: seq<Attempt>, setupFailed: bool)

  /**
   * The loop of `run_async` over `enumerate(batches)`: stop at the cap, otherwise set up
   * the batch, tag it and run it. `setupOk` says whether the set-up for a batch index
   * returns normally; `execute` says whether the crew call for that batch returns (true)
   * or raises (false); a raising crew call is logged and the loop goes on.
   */
  method RunBatches(batches: seq<seq<Fields>>, cap: nat, setupOk: nat -> bool, execute: (nat, seq<Fields>) -> bool)
    returns (r: BatchRun)
    ensures |r.attempts| <= Min(|batches|, cap)
    ensures !r.setupFailed <==> |r.attempts| == Min(|batches|, cap)
    ensures r.setupFailed ==> !setupOk(|r.attempts|)
    ensures forall k :: 0 <= k < |r.attempts| ==>
              setupOk(k) &&
              r.attempts[k].batchIdx == k &&
              r.attempts[k].inputs == TagBatch(batches[k], k) &&
              r.attempts[k].succeeded == execute(k, r.attempts[k].inputs)
  {
    var attempts := [];
    var batchIdx := 0;
    while batchIdx < |batches|
      invariant batchIdx <= |batches| && batchIdx <= cap
      invariant |attempts| == batchIdx
      invariant forall k :: 0 <= k < batchIdx ==>
                  setupOk(k) && attempts[k] == Attempt(k, TagBatch(batches[k], k), execute(k, TagBatch(batches[k], k)))
    {
      if batchIdx >= cap {
        break;
      }
      if !setupOk(batchIdx) {
        return BatchRun(attempts, true);
      }
      var inputs := TagBatch(batches[batchIdx], batchIdx);
      var ok := execute(batchIdx, inputs);
      attempts := attempts + [Attempt(batchIdx, inputs, ok)];
      batchIdx := batchIdx + 1;
    }
    r := BatchRun(attempts, false);
  }

  /**
   * `run_async`: load, return early on an empty list, batch by `BatchSize`, run the
   * first `MaxBatchesToProcess` batches. A load error escapes as the run's error.
   */
  method RunAsync(index: Option<seq<Line>>, category: string, pathExists: string -> bool,
                  setupOk: nat -> bool, execute: (nat, seq<Fields>) -> bool)
    returns (r: Result<BatchRun, LoadError>)
    ensures r.Err? <==> LoadIndex(index, category, pathExists).Err?
    ensures r.Err? ==> r.error == LoadIndex(index, category, pathExists).error
    ensures r.Ok? ==>
              var inputs := MapSeq(LoadIndex(index, category, pathExists).value, ToFields);
              var planned := Min(CeilDiv(|inputs|, BatchSize), MaxBatchesToProcess);
              && |r.value.attempts| <= planned
              && (!r.value.setupFailed <==> |r.value.attempts| == planned)
              && (r.value.setupFailed ==> !setupOk(|r.value.attempts|))
              && forall k :: 0 <= k < |r.value.attempts| ==>
                   r.value.attempts[k].batchIdx == k &&
                   r.value.attempts[k].inputs == TagBatch(inputs[k * BatchSize..Min((k + 1) * BatchSize, |inputs|)], k) &&
                   r.value.attempts[k].succeeded == execute(k, r.value.attempts[k].inputs)
  {
    var loaded := LoadIndex(index, category, pathExists);
    if loaded.Err? {
      return Err(loaded.error);
    }
    var inputs := MapSeq(loaded.value, ToFields);
    if |inputs| == 0 {
      assert CeilDiv(0, BatchSize) == 0;
      return Ok(BatchRun([], false));
    }
    var batches := Chunk(inputs, BatchSize);
    var run := RunBatches(batches, MaxBatchesToProcess, setupOk, execute);
    forall k | 0 <= k < |run.attempts|
      ensures batches[k] == inputs[k * BatchSize..Min((k + 1) * BatchSize, |inputs|)]
    {
      ChunkSlices(inputs, BatchSize, k);
    }
    r := Ok(run);
  }
}

=== FILE: base.dfy ===
/** Small shared vocabulary: optional values and integer helpers. */
module Base {

  /** A value that may be absent (Python's `None`, a missing key, a line that is not JSON). */
  datatype Option<+T> = None | Some(value: T)

  /** The outcome of an operation that either returns a value or raises an exception. */
  datatype Result<+T, +E> = Ok(value: T) | Err(error: E)

  function Min(a: int, b: int): int {
    if a <= b then a else b
  }

  /** Number of slices of length `size` needed to cover `n` items: the ceiling of n / size. */
  function CeilDiv(n: nat, size: nat): nat
    requires size > 0
  {
    (n + size - 1) / size
  }
}

=== FILE: crew_rewrite.dfy ===
/**
 * The rewrite pass over finished outputs: a length guardrail on the model's JSON
 * answer, the `_output_short.json` naming rule, the single-patent filter, and the
 * choice of what, if anything, is written back.
 */
module CrewRewrite {
  import opened Base
  import opened Text
  import opened Json
  import opened Seqs

  /** The strict upper bound on a string field: a field longer than this fails the guardrail. */
  const MaxFieldLength: nat := 350
  const OutputSuffix: string := "_output.json"
  const ShortSuffix: string := "_output_short.json"

  /** `json.loads(task_output.raw)`: the parsed value, or the decoder's error text. */
  datatype Parse = Parsed(value: Value) | Invalid(error: string)

  /** What `ensure_output_length` does: return `(True, data)`, return `(False, message)`, or raise. */
  datatype Verdict =
    | Accepted(data: Fields)
    | Rejected(message: string)
    | Raises   // `.items()` on a parsed value that is not an object: AttributeError, which the guardrail does not catch

  /** The field fails the check: its value is a string of more than 350 characters. */
  predicate TooLong(field: (string, Value)) {
    field.1.Str? && |field.1.s| > MaxFieldLength
  }

  /** Position of the first field that fails the check, in iteration order. */
  function FirstTooLong(fields: Fields): (r: Option<nat>)
    ensures r.None? <==> forall i :: 0 <= i < |fields| ==> !TooLong(fields[i])
    ensures r.Some? ==> r.value < |fields| && TooLong(fields[r.value]) &&
                        forall j :: 0 <= j < r.value ==> !TooLong(fields[j])
  {
    if |fields| == 0 then None
    else if TooLong(fields[0]) then Some(0)
    else match FirstTooLong(fields[1..])
      case None =>
        assert forall i :: 1 <= i < |fields| ==> fields[i] == fields[1..][i - 1];
        None
      case Some(i) =>
        assert forall j :: 1 <= j < i + 1 ==> fields[j] == fields[1..][j - 1];
        Some(i + 1)
  }

  /** `ensure_output_length`. */
  function EnsureOutputLength(output: Parse): (r: Verdict)
    ensures output.Invalid? ==> r == Rejected("Invalid JSON output: " + output.error)
    ensures output.Parsed? && !output.value.Obj? ==> r.Raises?
    ensures output.Parsed? && output.value.Obj? ==>
              var fields := output.value.fields;
              && (r.Accepted? <==> forall i :: 0 <= i < |fields| ==> !TooLong(fields[i]))
              && (r.Accepted? ==> r.data == fields)
              && (r.Rejected? ==>
                    exists i :: 0 <= i < |fields| && TooLong(fields[i]) &&
                                (forall j :: 0 <= j < i ==> !TooLong(fields[j])) &&
                                r.message == "Field '" + fields[i].0 + "' is too long.")
  {
    match output
    case Invalid(e) => Rejected("Invalid JSON output: " + e)
    case Parsed(Obj(fields)) =>
      (match FirstTooLong(fields)
       case None => Accepted(fields)
       case Some(i) => Rejected("Field '" + fields[i].0 + "' is too long."))
    case Parsed(_) => Raises
  }

  /** Cutting every string field down to the bound; other values are left alone. */
  function TruncateFields(fields: Fields): (r: Fields)
    ensures |r| == |fields|
    ensures forall i :: 0 <= i < |fields| ==> r[i].0 == fields[i].0
  {
    seq(|fields|, i requires 0 <= i < |fields| =>
      match fields[i].1
      case Str(s) => (fields[i].0, Str(if |s| > MaxFieldLength then s[..MaxFieldLength] else s))
      case v => (fields[i].0, v))
  }

  /** The length test is a strict `>`: a string of exactly 350 characters passes, one of 351 fails. */
  lemma {:induction false} LengthLimitBoundary(key: string, s: string)
    ensures |s| == MaxFieldLength ==> EnsureOutputLength(Parsed(Obj([(key, Str(s))]))).Accepted?
    ensures |s| == MaxFieldLength + 1 ==>
              EnsureOutputLength(Parsed(Obj([(key, Str(s))]))) == Rejected("Field '" + key + "' is too long.")
  {
    var fields := [(key, Str(s))];
    if |s| == MaxFieldLength + 1 {
      assert TooLong(fields[0]);
    }
  }

  /** An answer whose strings are cut to the bound always passes, with the cut answer as the data. */
  lemma {:induction false} TruncatedAnswerPasses(fields: Fields)
    ensures EnsureOutputLength(Parsed(Obj(TruncateFields(fields)))) == Accepted(TruncateFields(fields))
  {
    var t := TruncateFields(fields);
    forall i | 0 <= i < |t|
      ensures !TooLong(t[i])
    {
      assert t[i].1.Str? ==> |t[i].1.s| <= MaxFieldLength;
    }
  }

  /** Non-string values are never checked, however large they are. */
  lemma {:induction false} NonStringsUnchecked(fields: Fields, key: string, v: Value)
    requires !v.Str?
    ensures EnsureOutputLength(Parsed(Obj(fields + [(key, v)]))) ==
            match EnsureOutputLength(Parsed(Obj(fields)))
            case Accepted(_) => Accepted(fields + [(key, v)])
            case other => other
  {
    var g := fields + [(key, v)];
    assert forall i :: 0 <= i < |fields| ==> g[i] == fields[i];
    assert !TooLong(g[|fields|]);
  }

  /** `json_file.replace('_output.json', '_output_short.json')`. */
  function OutputFilename(jsonFile: string): (r: string)
    ensures !Contains(jsonFile, OutputSuffix) ==> r == jsonFile
  {
    ReplaceAll(jsonFile, OutputSuffix, ShortSuffix)
  }

  /** A file found by the `*_output.json` glob is saved under a name ending in `_output_short.json`. */
  lemma {:induction false} OutputFilenameSuffix(jsonFile: string)
    requires EndsWith(jsonFile, OutputSuffix)
    ensures EndsWith(OutputFilename(jsonFile), ShortSuffix)
    ensures OutputFilename(jsonFile) != jsonFile
  {
    SuffixFacts();
    ReplaceAllKeepsSuffix(jsonFile, OutputSuffix, ShortSuffix);
    EndingsDiffer(OutputFilename(jsonFile), ShortSuffix, jsonFile, OutputSuffix);
  }

  /** `_output.json` cannot overlap itself, and `_output_short.json` does not end in it. */
  lemma {:induction false} SuffixFacts()
    ensures FirstCharUnique(OutputSuffix)
    ensures 0 < |OutputSuffix| <= |ShortSuffix| && ShortSuffix[|ShortSuffix| - |OutputSuffix|] != OutputSuffix[0]
  {
    assert ShortSuffix[|ShortSuffix| - |OutputSuffix|] == 't';
  }

  /** `find_json_files`: the listed paths whose file name ends in `_output.json`, in listing order. */
  function FindJsonFiles(listing: seq<string>): (r: seq<string>)
    ensures |r| <= |listing|
    ensures forall i :: 0 <= i < |r| ==> r[i] in listing && EndsWith(r[i], OutputSuffix)
    ensures forall i :: 0 <= i < |listing| && EndsWith(listing[i], OutputSuffix) ==> listing[i] in r
    ensures Subsequence(r, listing)
    ensures forall i :: 0 <= i < |listing| ==>
              multiset(r)[listing[i]] == if EndsWith(listing[i], OutputSuffix) then multiset(listing)[listing[i]] else 0
  {
    Filter(listing, (p: string) => EndsWith(p, OutputSuffix))
  }

  /** The loop's first test: `TARGET_PATENT_NUMBER and TARGET_PATENT_NUMBER not in json_file`. */
  predicate Skipped(target: Option<string>, jsonFile: string) {
    target.Some? && |target.value| > 0 && !Contains(jsonFile, target.value)
  }

  /** With no target (None or empty), nothing is skipped; with one, exactly the paths containing it are kept. */
  lemma {:induction false} SkipRule(target: Option<string>, jsonFile: string)
    ensures target.None? || target == Some("") ==> !Skipped(target, jsonFile)
    ensures target.Some? && |target.value| > 0 ==>
              (Skipped(target, jsonFile) <==> forall i :: !OccursAt(jsonFile, target.value, i))
  {
  }

  /** `result.raw` as the crew returns it: a dict, or text together with what `json.loads` makes of it. */
  datatype Raw = RawDict(fields: Fields) | RawText(text: string, parsed: Option<Value>)

  /**
   * `data_to_save`, and whether it is written: `result` is `None` when the crew
   * result is falsy or has no `raw`. The value is written only when it is truthy.
   */
  function DataToSave(result: Option<Raw>): (r: Option<Value>)
    ensures r.Some? ==> Truthy(r.value)
    ensures r.Some? ==> result.Some?
    ensures result.Some? && result.value.RawDict? ==>
              r == (if |result.value.fields| > 0 then Some(Obj(result.value.fields)) else None)
    ensures result.Some? && result.value.RawText? && result.value.parsed.None? ==> r.None?
    ensures result.Some? && result.value.RawText? && |result.value.text| > 0 &&
            result.value.parsed.Some? && Truthy(result.value.parsed.value) ==>
              r == result.value.parsed
    ensures result.Some? && result.value.RawText? && result.value.parsed.Some? &&
            !Truthy(result.value.parsed.value) ==>
              r.None?
    ensures result.Some? && result.value.RawText? && |result.value.text| == 0 ==> r.None?
  {
    match result
    case None => None
    case Some(RawDict(fields)) => if |fields| > 0 then Some(Obj(fields)) else None
    case Some(RawText(text, parsed)) =>
      if |text| == 0 then None
      else match parsed
        case None => None
        case Some(v) => if Truthy(v) then Some(v) else None
  }

  /** The loop writes this file: it is not skipped, has data to save, and its output file can be written. */
  predicate Qualifies(target: Option<string>, run: string -> Option<Raw>, writeOk: string -> bool, jsonFile: string) {
    !Skipped(target, jsonFile) && DataToSave(run(jsonFile)).Some? && writeOk(OutputFilename(jsonFile))
  }

  function QualifiesBy(target: Option<string>, run: string -> Option<Raw>, writeOk: string -> bool): string -> bool {
    f => Qualifies(target, run, writeOk, f)
  }

  /** The write a qualifying file makes: its short name and its data. */
  function WriteFor(run: string -> Option<Raw>): string -> (string, Value) {
    f => (OutputFilename(f), match DataToSave(run(f)) case Some(v) => v case None => Null)
  }

  /** One more file in the loop: the writes so far grow by that file's write exactly when it qualifies. */
  lemma {:induction false} WritesSnoc(files: seq<string>, f: string, p: string -> bool, w: string -> (string, Value))
    ensures MapSeq(Filter(files + [f], p), w) == MapSeq(Filter(files, p), w) + (if p(f) then [w(f)] else [])
  {
    FilterAppend(files, [f], p);
    assert Filter([f], p) == if p(f) then [f] else [];
    MapSeqAppend(Filter(files, p), Filter([f], p), w);
    assert MapSeq(Filter([f], p), w) == if p(f) then [w(f)] else [];
  }

  /** One step of the loop: the filter-then-map over the next prefix adds the file's write exactly when it qualifies. */
  lemma {:induction false} ProcessStep(jsonFiles: seq<string>, n: nat, target: Option<string>, run: string -> Option<Raw>,
                                       writeOk: string -> bool)
    requires n < |jsonFiles|
    ensures MapSeq(Filter(jsonFiles[..n + 1], QualifiesBy(target, run, writeOk)), WriteFor(run)) ==
            MapSeq(Filter(jsonFiles[..n], QualifiesBy(target, run, writeOk)), WriteFor(run)) +
            (if Qualifies(target, run, writeOk, jsonFiles[n])
             then [(OutputFilename(jsonFiles[n]), DataToSave(run(jsonFiles[n])).value)] else [])
  {
    assert jsonFiles[..n + 1] == jsonFiles[..n] + [jsonFiles[n]];
    WritesSnoc(jsonFiles[..n], jsonFiles[n], QualifiesBy(target, run, writeOk), WriteFor(run));
  }

  /** `w` is the write of some found, unskipped file: its short name, which could be written, and the data chosen for it. */
  predicate WrittenFrom(w: (string, Value), jsonFiles: seq<string>, target: Option<string>, run: string -> Option<Raw>,
                        writeOk: string -> bool) {
    exists i :: 0 <= i < |jsonFiles| && !Skipped(target, jsonFiles[i]) && writeOk(OutputFilename(jsonFiles[i])) &&
                DataToSave(run(jsonFiles[i])) == Some(w.1) && w.0 == OutputFilename(jsonFiles[i])
  }

  /**
   * The main loop over the found files. `run` stands for reading the file and the
   * crew call; `None` when either raises or returns nothing usable, since the loop's
   * `except` then moves on. `writeOk` says whether opening and dumping to an output file
   * return normally; a failed write is caught by the same `except`. The result lists the
   * files written, in order.
   */
  method ProcessFiles(jsonFiles: seq<string>, target: Option<string>, run: string -> Option<Raw>, writeOk: string -> bool)
    returns (writes: seq<(string, Value)>)
    ensures writes == MapSeq(Filter(jsonFiles, QualifiesBy(target, run, writeOk)), WriteFor(run))
    ensures |writes| <= |jsonFiles|
    ensures forall j :: 0 <= j < |writes| ==> WrittenFrom(writes[j], jsonFiles, target, run, writeOk)
    ensures forall i :: 0 <= i < |jsonFiles| && Qualifies(target, run, writeOk, jsonFiles[i]) ==>
              (OutputFilename(jsonFiles[i]), DataToSave(run(jsonFiles[i])).value) in writes
  {
    writes := [];
    var n := 0;
    while n < |jsonFiles|
      invariant n <= |jsonFiles|
      invariant writes == MapSeq(Filter(jsonFiles[..n], QualifiesBy(target, run, writeOk)), WriteFor(run))
    {
      var jsonFile := jsonFiles[n];
      ProcessStep(jsonFiles, n, target, run, writeOk);
      if !Skipped(target, jsonFile) {
        var data := DataToSave(run(jsonFile));
        if data.Some? && writeOk(OutputFilename(jsonFile)) {
          writes := writes + [(OutputFilename(jsonFile), data.value)];
        }
      }
      n := n + 1;
    }
    assert jsonFiles[..n] == jsonFiles;
    WritesFacts(jsonFiles, target, run, writeOk);
  }

  /** The filter-then-map list of writes holds a write from every qualifying file, and nothing else. */
  lemma {:induction false} WritesFacts(jsonFiles: seq<string>, target: Option<string>, run: string -> Option<Raw>,
                                       writeOk: string -> bool)
    ensures var writes := MapSeq(Filter(jsonFiles, QualifiesBy(target, run, writeOk)), WriteFor(run));
            && |writes| <= |jsonFiles|
            && (forall j :: 0 <= j < |writes| ==> WrittenFrom(writes[j], jsonFiles, target, run, writeOk))
            && forall i :: 0 <= i < |jsonFiles| && Qualifies(target, run, writeOk, jsonFiles[i]) ==>
                 (OutputFilename(jsonFiles[i]), DataToSave(run(jsonFiles[i])).value) in writes
  {
    var q := QualifiesBy(target, run, writeOk);
    var kept := Filter(jsonFiles, q);
    var writes := MapSeq(kept, WriteFor(run));
    forall j | 0 <= j < |writes|
      ensures WrittenFrom(writes[j], jsonFiles, target, run, writeOk)
    {
      assert kept[j] in jsonFiles && q(kept[j]);
      var i :| 0 <= i < |jsonFiles| && jsonFiles[i] == kept[j];
    }
    forall i | 0 <= i < |jsonFiles| && Qualifies(target, run, writeOk, jsonFiles[i])
      ensures (OutputFilename(jsonFiles[i]), DataToSave(run(jsonFiles[i])).value) in writes
    {
      assert q(jsonFiles[i]);
      var k :| 0 <= k < |kept| && kept[k] == jsonFiles[i];
      assert writes[k] == WriteFor(run)(kept[k]);
    }
  }

}

=== FILE: extract_json.dfy ===
/**
 * The one-patent extractor: find the first index record whose publication number
 * matches, and save it alone as `<base>/<number>/<number>.json`.
 */
module ExtractJson {
  import opened Base
  import opened Text
  import opened Json
  import opened Seqs

  /** Why the search loop was left early. */
  datatype SearchStop =
    | Match(record: Value)  // the `break` after the first matching record
    | NoGet                 // `.get` on a line that is not an object: the outer `except Exception`

  /** What one run ends with; only `Saved` leaves a file behind. */
  datatype Outcome =
    | Saved(path: string, data: Value)
    | NotFound
    | InputNotFound   // a `FileNotFoundError`: on opening the index, or on creating the output directory or file
    | Failed          // any other exception: a non-object line, or creating the directory or file

  /** The record's publication number equals the wanted one (only a JSON string can equal a `str`). */
  predicate Matches(fields: Fields, pub: string) {
    Get(fields, "publication_number") == Some(Str(pub))
  }

  /** One line of the index: a line that does not decode is skipped; nothing is ever kept. */
  function ClassifyLine(pub: string, line: Line): (r: Step<(), SearchStop>)
    ensures !r.Keep?
    ensures r == Skip <==> line.None? || (line.value.Obj? && !Matches(line.value.fields, pub))
    ensures r.Stop? && r.reason.Match? <==> line.Some? && line.value.Obj? && Matches(line.value.fields, pub)
    ensures r.Stop? && r.reason.Match? ==> r.reason.record == line.value
    ensures r == Stop(NoGet) <==> line.Some? && !line.value.Obj?
  {
    match line
    case None => Skip
    case Some(Obj(fields)) => if Matches(fields, pub) then Stop(Match(Obj(fields))) else Skip
    case Some(_) => Stop(NoGet)
  }

  function LineSteps(pub: string, lines: seq<Line>): (r: seq<Step<(), SearchStop>>)
    ensures |r| == |lines|
    ensures forall i :: 0 <= i < |lines| ==> r[i] == ClassifyLine(pub, lines[i])
  {
    seq(|lines|, i requires 0 <= i < |lines| => ClassifyLine(pub, lines[i]))
  }

  lemma {:induction false} LineStepsAppend(pub: string, a: seq<Line>, b: seq<Line>)
    ensures LineSteps(pub, a + b) == LineSteps(pub, a) + LineSteps(pub, b)
  {
    var l, la, lb := LineSteps(pub, a + b), LineSteps(pub, a), LineSteps(pub, b);
    forall i | 0 <= i < |a|
      ensures l[i] == la[i]
    {
      assert (a + b)[i] == a[i];
    }
    forall i | 0 <= i < |b|
      ensures l[|a| + i] == lb[i]
    {
      assert (a + b)[|a| + i] == b[i];
    }
    PointwiseAppend(l, la, lb);
  }

  /** The search loop: how it was left, or `None` when it read every line. */
  function Search(pub: string, lines: seq<Line>): Option<SearchStop> {
    Scan(LineSteps(pub, lines)).stopped
  }

  /** `os.path.join(os.path.join(base, pub), f"{pub}.json")`. */
  function OutputPath(base: string, pub: string): (r: string)
    ensures EndsWith(r, pub + ".json")
  {
    PathJoin(PathJoin(base, pub), pub + ".json")
  }

  /**
   * What creating the output directory and writing the file do. A `FileNotFoundError`
   * there (a publication number holding `/` names a directory that was never made) is
   * caught by the same handler as a missing index.
   */
  datatype WriteResult = Written | WriteNotFound | WriteFailed

  /** Line `i` is where the search ends: every earlier line was skipped and line `i` stops the loop. */
  predicate StopsAt(pub: string, lines: seq<Line>, i: int) {
    0 <= i < |lines| && ClassifyLine(pub, lines[i]).Stop? &&
    forall j :: 0 <= j < i ==> ClassifyLine(pub, lines[j]) == Skip
  }

  /** The search ends at a record with the wanted publication number. */
  ghost predicate Found(pub: string, lines: seq<Line>) {
    exists i :: StopsAt(pub, lines, i) && lines[i].value.Obj? && Matches(lines[i].value.fields, pub)
  }

  /**
   * `extract_and_save_patent_data`. `file` is the index (`None`: no such file) and
   * `write` what creating the directory and writing the file do.
   */
  function ExtractAndSave(file: Option<seq<Line>>, pub: string, base: string, write: WriteResult): (r: Outcome)
    ensures file.None? ==> r == InputNotFound
    ensures file.Some? ==>
              var lines := file.value;
              && (r == InputNotFound <==> write == WriteNotFound && Found(pub, lines))
              && (r == Failed <==>
                    (write == WriteFailed && Found(pub, lines)) || exists i :: StopsAt(pub, lines, i) && !lines[i].value.Obj?)
              && (r.Saved? <==> write == Written && Found(pub, lines))
              && (r.Saved? ==> r.path == OutputPath(base, pub) &&
                               exists i :: StopsAt(pub, lines, i) && lines[i] == Some(r.data))
              && (r == NotFound <==> forall j :: 0 <= j < |lines| ==> ClassifyLine(pub, lines[j]) == Skip)
  {
    match file
    case None => InputNotFound
    case Some(lines) =>
      var found := Search(pub, lines);
      match found
      case None =>
        SearchFound(pub, lines);
        NotFound
      case Some(NoGet) =>
        SearchFound(pub, lines);
        Failed
      case Some(Match(record)) =>
        FoundRecordIsTruthy(pub, lines);
        SearchFound(pub, lines);
        if !Truthy(record) then NotFound
        else match write
          case Written => Saved(OutputPath(base, pub), record)
          case WriteNotFound => InputNotFound
          case WriteFailed => Failed
  }

  /** The loop leaves at the first line that stops it, with that line's reason. */
  lemma {:induction false} SearchStopsAtFirst(pub: string, lines: seq<Line>)
    ensures Search(pub, lines).None? <==> forall j :: 0 <= j < |lines| ==> ClassifyLine(pub, lines[j]) == Skip
    ensures Search(pub, lines).Some? ==>
              exists i :: StopsAt(pub, lines, i) && ClassifyLine(pub, lines[i]) == Stop(Search(pub, lines).value)
  {
    var steps := LineSteps(pub, lines);
    if Search(pub, lines).Some? {
      var i :| 0 <= i < |steps| && steps[i] == Stop(Search(pub, lines).value) &&
               forall j :: 0 <= j < i ==> !steps[j].Stop?;
      assert StopsAt(pub, lines, i);
    }
  }

  /** How the search ends decides which of the outcomes' conditions holds. */
  lemma {:induction false} SearchFound(pub: string, lines: seq<Line>)
    ensures Search(pub, lines).None? <==> forall j :: 0 <= j < |lines| ==> ClassifyLine(pub, lines[j]) == Skip
    ensures Found(pub, lines) <==> Search(pub, lines).Some? && Search(pub, lines).value.Match?
    ensures (exists i :: StopsAt(pub, lines, i) && !lines[i].value.Obj?) <==> Search(pub, lines) == Some(NoGet)
  {
    SearchStopsAtFirst(pub, lines);
  }

  /** The matched record holds the wanted publication number, so the `if found_patent_data` test always passes. */
  lemma {:induction false} FoundRecordIsTruthy(pub: string, lines: seq<Line>)
    ensures Search(pub, lines).Some? && Search(pub, lines).value.Match? ==>
              Truthy(Search(pub, lines).value.record) &&
              exists i :: StopsAt(pub, lines, i) && lines[i] == Some(Search(pub, lines).value.record)
  {
    SearchStopsAtFirst(pub, lines);
    if Search(pub, lines).Some? && Search(pub, lines).value.Match? {
      var i :| StopsAt(pub, lines, i) && ClassifyLine(pub, lines[i]) == Stop(Search(pub, lines).value);
      var fields := lines[i].value.fields;
      assert Get(fields, "publication_number").Some?;
      assert |fields| > 0;
    }
  }

  /** The first matching record is saved; lines after it are never read. */
  lemma {:induction false} FirstMatchWins(pub: string, base: string, before: seq<Line>, record: Fields, after: seq<Line>)
    requires forall j :: 0 <= j < |before| ==> ClassifyLine(pub, before[j]) == Skip
    requires Matches(record, pub)
    ensures ExtractAndSave(Some(before + [Some(Obj(record))] + after), pub, base, Written) ==
            Saved(OutputPath(base, pub), Obj(record))
  {
    var lines := before + [Some(Obj(record))] + after;
    LineStepsAppend(pub, before + [Some(Obj(record))], after);
    LineStepsAppend(pub, before, [Some(Obj(record))]);
    assert LineSteps(pub, [Some(Obj(record))]) == [Stop(Match(Obj(record)))];
    ScanStop(LineSteps(pub, before), Match(Obj(record)), LineSteps(pub, after));
    FoundRecordIsTruthy(pub, lines);
  }

  /** A line that does not decode is passed over: the run is as if it were not in the file. */
  lemma {:induction false} UndecodableLineSkipped(pub: string, base: string, write: WriteResult, before: seq<Line>, after: seq<Line>)
    ensures ExtractAndSave(Some(before + [None] + after), pub, base, write) ==
            ExtractAndSave(Some(before + after), pub, base, write)
  {
    LineStepsAppend(pub, before + [None], after);
    LineStepsAppend(pub, before, [None]);
    LineStepsAppend(pub, before, after);
    assert LineSteps(pub, [None]) == [Skip];
    ScanSkip(LineSteps(pub, before), LineSteps(pub, after));
  }

  /** A decodable line that is not an object ends the run with an error, even when a match follows it. */
  lemma {:induction false} NonObjectLineFails(pub: string, base: string, write: WriteResult, before: seq<Line>, v: Value, after: seq<Line>)
    requires forall j :: 0 <= j < |before| ==> ClassifyLine(pub, before[j]) == Skip
    requires !v.Obj?
    ensures ExtractAndSave(Some(before + [Some(v)] + after), pub, base, write) == Failed
  {
    LineStepsAppend(pub, before + [Some(v)], after);
    LineStepsAppend(pub, before, [Some(v)]);
    assert LineSteps(pub, [Some(v)]) == [Stop(NoGet)];
    ScanStop(LineSteps(pub, before), NoGet, LineSteps(pub, after));
  }

  /** The output file sits in a directory named after the patent, directly under a relative or absolute base. */
  lemma {:induction false} OutputPathShape(base: string, pub: string)
    requires |pub| > 0 && pub[0] != '/' && pub[|pub| - 1] != '/'
    requires |base| > 0 && !EndsWith(base, "/")
    ensures OutputPath(base, pub) == base + "/" + pub + "/" + pub + ".json"
  {
    assert EndsWith(base + "/" + pub, pub);
    var dir := base + "/" + pub;
    assert dir[|dir| - 1] == pub[|pub| - 1];
    assert !EndsWith(dir, "/");
  }

  /** What the script prints when run directly: the configuration is checked for empty values first. */
  function RunScript(inputPath: string, pub: string, base: string, file: Option<seq<Line>>, write: WriteResult): (r: Option<Outcome>)
    ensures r.None? <==> inputPath == "" || pub == "" || base == ""
    ensures r.Some? ==> r.value == ExtractAndSave(file, pub, base, write)
  {
    if inputPath == "" || pub == "" || base == "" then None
    else Some(ExtractAndSave(file, pub, base, write))
  }
}

=== FILE: json.dfy ===
/**
 * Parsed JSON values as the scripts see them after `json.loads`: Python's dict, list,
 * str, int, bool and None. Parsing itself is not modelled; each JSONL line arrives
 * already parsed, or as `None` when it is not valid JSON.
 */
module Json {
  import opened Base
  import opened Text

  /** A JSON object keeps its keys in insertion order, as a Python dict does. */
  datatype Value =
    | Null
    | Bool(b: bool)
    | Num(n: int)
    | Str(s: string)
    | Arr(items: seq<Value>)
    | Obj(fields: seq<(string, Value)>)

  type Fields = seq<(string, Value)>

  /** One line of a JSONL file: the parsed value, or `None` when `json.loads` raises `JSONDecodeError`. */
  type Line = Option<Value>

  /** Python truthiness: `None`, `False`, `0`, `""`, `[]` and `{}` are false. */
  predicate Truthy(v: Value) {
    match v
    case Null => false
    case Bool(b) => b
    case Num(n) => n != 0
    case Str(s) => |s| > 0
    case Arr(items) => |items| > 0
    case Obj(fields) => |fields| > 0
  }

  /** `d.get(key)`: the value stored under `key`, or `None`. */
  function Get(fields: Fields, key: string): Option<Value> {
    if |fields| == 0 then None
    else if fields[0].0 == key then Some(fields[0].1)
    else Get(fields[1..], key)
  }

  /** `d.get(key)` with Python's `None` for a missing key. */
  function GetOrNull(fields: Fields, key: string): Value {
    match Get(fields, key)
    case Some(v) => v
    case None => Null
  }

  /** The lookup finds a value exactly when some field has the key, and the value it finds is stored under that key. */
  lemma {:induction false} GetSpec(fields: Fields, key: string)
    ensures Get(fields, key).Some? <==> exists i :: 0 <= i < |fields| && fields[i].0 == key
    ensures Get(fields, key).Some? ==> exists i :: 0 <= i < |fields| && fields[i] == (key, Get(fields, key).value)
    decreases |fields|
  {
    if |fields| > 0 && fields[0].0 != key {
      GetSpec(fields[1..], key);
      assert forall i :: 0 <= i < |fields| - 1 ==> fields[1..][i] == fields[i + 1];
    }
  }

  /** Looking up in a dict literal, one entry at a time. */
  lemma {:induction false} GetCons(k: string, v: Value, rest: Fields, key: string)
    ensures Get([(k, v)] + rest, key) == if k == key then Some(v) else Get(rest, key)
  {
    assert ([(k, v)] + rest)[1..] == rest;
  }

  /** `key in d`. */
  predicate HasKey(fields: Fields, key: string) {
    Get(fields, key).Some?
  }

  /** `list(d.keys())`, in insertion order. */
  function Keys(fields: Fields): (r: seq<string>)
    ensures |r| == |fields|
    ensures forall i :: 0 <= i < |fields| ==> r[i] == fields[i].0
  {
    seq(|fields|, i requires 0 <= i < |fields| => fields[i].0)
  }

  /** `{**d, key: v}`: the value is replaced in place when `key` is present, otherwise appended. */
  function Set(fields: Fields, key: string, v: Value): (r: Fields)
    ensures Get(r, key) == Some(v)
    ensures forall k :: k != key ==> Get(r, k) == Get(fields, k)
    ensures Keys(r) == if HasKey(fields, key) then Keys(fields) else Keys(fields) + [key]
  {
    if |fields| == 0 then [(key, v)]
    else if fields[0].0 == key then
      var r := [(key, v)] + fields[1..];
      assert r[1..] == fields[1..];
      KeysCons((key, v), fields[1..]);
      KeysCons(fields[0], fields[1..]);
      r
    else
      var rest := Set(fields[1..], key, v);
      var r := [fields[0]] + rest;
      assert r[1..] == rest;
      assert HasKey(fields, key) == HasKey(fields[1..], key);
      KeysCons(fields[0], fields[1..]);
      KeysCons(fields[0], rest);
      r
  }

  lemma {:induction false} KeysCons(f: (string, Value), rest: Fields)
    ensures Keys([f] + rest) == [f.0] + Keys(rest)
  {
    var k, kr := Keys([f] + rest), Keys(rest);
    forall i | 0 <= i < |k|
      ensures k[i] == ([f.0] + kr)[i]
    {
      if i > 0 {
        assert ([f] + rest)[i] == rest[i - 1];
      }
    }
  }

  /**
   * What `for x in v` yields: the items of a list, the one-character strings of a
   * string, the keys of a dict. `None` for values Python cannot iterate (TypeError).
   */
  function Iterate(v: Value): (r: Option<seq<Value>>)
    ensures r.None? <==> v.Null? || v.Bool? || v.Num?
  {
    match v
    case Arr(items) => Some(items)
    case Str(s) => Some(seq(|s|, i requires 0 <= i < |s| => Str([s[i]])))
    case Obj(fields) => Some(seq(|fields|, i requires 0 <= i < |fields| => Str(fields[i].0)))
    case _ => None
  }

  /** The strings of `vs`, or `None` if some element is not a string (a path function would raise TypeError). */
  function AsStrings(vs: seq<Value>): (r: Option<seq<string>>)
    ensures r.Some? <==> forall i :: 0 <= i < |vs| ==> vs[i].Str?
    ensures r.Some? ==> |r.value| == |vs| && forall i :: 0 <= i < |vs| ==> vs[i] == Str(r.value[i])
  {
    if |vs| == 0 then Some([])
    else if !vs[0].Str? then None
    else match AsStrings(vs[1..])
      case None =>
        assert !vs[1..][0].Str? || exists i :: 0 <= i < |vs| - 1 && !vs[1..][i].Str?;
        None
      case Some(rest) =>
        assert forall i :: 1 <= i < |vs| ==> vs[i] == vs[1..][i - 1];
        Some([vs[0].s] + rest)
  }

  /** A list of strings as JSON string values. */
  function Strs(ps: seq<string>): (r: seq<Value>)
    ensures |r| == |ps|
    ensures forall i :: 0 <= i < |ps| ==> r[i] == Str(ps[i])
  {
    seq(|ps|, i requires 0 <= i < |ps| => Str(ps[i]))
  }

  /** Wrapping strings as JSON values and reading them back gives the same strings. */
  lemma {:induction false} AsStringsOfStrs(ps: seq<string>)
    ensures AsStrings(Strs(ps)) == Some(ps)
  {
    var r := AsStrings(Strs(ps));
    assert r.Some?;
    assert |r.value| == |ps|;
    forall i | 0 <= i < |ps|
      ensures r.value[i] == ps[i]
    {
      assert Strs(ps)[i] == Str(r.value[i]);
    }
    assert r.value == ps;
  }

  /** `repr(v)` with strings in single quotes; escaping inside strings is not modelled. */
  function Repr(v: Value): string
    decreases v, 1
  {
    match v
    case Str(s) => "'" + s + "'"
    case _ => Show(v)
  }

  /** `str(v)`, as an f-string renders a value. */
  function Show(v: Value): string
    decreases v, 0
  {
    match v
    case Null => "None"
    case Bool(b) => if b then "True" else "False"
    case Num(n) => IntToString(n)
    case Str(s) => s
    case Arr(items) =>
      "[" + Join(", ", seq(|items|, i requires 0 <= i < |items| => Repr(items[i]))) + "]"
    case Obj(fields) =>
      "{" + Join(", ", seq(|fields|, i requires 0 <= i < |fields| =>
                           "'" + fields[i].0 + "': " + Repr(fields[i].1))) + "}"
  }
}

=== FILE: multi_image.dfy ===
/**
 * The batch helpers of the multi-image analysis crew: batch dicts, batches cut
 * from a directory walk, the per-batch loop that records a result or an error
 * under each batch id, and the two entry points that validate their input.
 */
module MultiImage {
  import opened Base
  import opened Text
  import opened Json
  import opened Seqs
  import opened Batching

  /** The Python exception classes these helpers raise, with `str(e)`. */
  datatype ExceptionKind = ValueError | FileNotFoundError | TypeError | CrewError
  datatype Exception = Exception(kind: ExceptionKind, message: string)

  /**
   * The prefix of every recorded error. The source file holds the UTF-8 bytes of a
   * cross mark decoded as Mac Roman, so the string is these three characters.
   */
  const ErrorMarker: string := "\U{201A}\U{F9}\U{E5}"
  const ImageExtensions: seq<string> := [".jpg", ".jpeg", ".png", ".gif", ".bmp", ".tiff", ".webp"]

  /** `create_image_batch`: the key of the image list depends on the format. */
  function ImageKey(usePatentFormat: bool): string {
    if usePatentFormat then "img_paths_str" else "img_list"
  }

  function CreateImageBatch(id: Value, imgList: Value, usePatentFormat: bool): (r: Fields)
    ensures Keys(r) == ["id", ImageKey(usePatentFormat)]
    ensures Get(r, "id") == Some(id)
    ensures Get(r, ImageKey(usePatentFormat)) == Some(imgList)
  {
    GetCons("id", id, [(ImageKey(usePatentFormat), imgList)], ImageKey(usePatentFormat));
    [("id", id), (ImageKey(usePatentFormat), imgList)]
  }

  /** `create_patent_batch`: the patent-format batch. */
  function CreatePatentBatch(id: Value, imgPathsStr: Value): (r: Fields)
    ensures r == CreateImageBatch(id, imgPathsStr, true)
    ensures Keys(r) == ["id", "img_paths_str"]
  {
    [("id", id), ("img_paths_str", imgPathsStr)]
  }

  /** `batch_data.get('img_list') or batch_data.get('img_paths_str', [])`. */
  function ImageListOf(batch: Fields): (r: Value)
    ensures Truthy(GetOrNull(batch, "img_list")) ==> r == GetOrNull(batch, "img_list")
    ensures !Truthy(GetOrNull(batch, "img_list")) && !HasKey(batch, "img_paths_str") ==> r == Arr([])
    ensures !Truthy(GetOrNull(batch, "img_list")) && HasKey(batch, "img_paths_str") ==>
              r == GetOrNull(batch, "img_paths_str")
  {
    var first := GetOrNull(batch, "img_list");
    if Truthy(first) then first
    else match Get(batch, "img_paths_str")
      case Some(v) => v
      case None => Arr([])
  }

  /** The batch loop reads back the list a batch was created with, in either format, whenever that list is non-empty. */
  lemma {:induction false} ImageListRoundTrip(id: Value, imgList: Value, usePatentFormat: bool)
    ensures Truthy(imgList) ==> ImageListOf(CreateImageBatch(id, imgList, usePatentFormat)) == imgList
    ensures Truthy(ImageListOf(CreateImageBatch(id, imgList, usePatentFormat))) <==> Truthy(imgList)
    ensures GetOrNull(CreateImageBatch(id, imgList, usePatentFormat), "id") == id
  {
    var b := CreateImageBatch(id, imgList, usePatentFormat);
    GetCons("id", id, [(ImageKey(usePatentFormat), imgList)], "img_list");
    GetCons("id", id, [(ImageKey(usePatentFormat), imgList)], "img_paths_str");
    GetCons(ImageKey(usePatentFormat), imgList, [], "img_list");
    GetCons(ImageKey(usePatentFormat), imgList, [], "img_paths_str");
  }

  /** `os.path.exists` accepts a string or an integer (a file descriptor); anything else raises `TypeError`. */
  predicate PathArgument(v: Value) {
    v.Str? || v.Num? || v.Bool?
  }

  /** The Python type name `os.stat` puts in its `TypeError` for an element that is not a path. */
  function TypeName(v: Value): string {
    match v
    case Null => "NoneType"
    case Bool(_) => "bool"
    case Num(_) => "int"
    case Str(_) => "str"
    case Arr(_) => "list"
    case Obj(_) => "dict"
  }

  /** The element the validation loop stops at: the first one that is not a path or does not exist. */
  function FirstMissing(paths: seq<Value>, pathExists: Value -> bool): (r: Option<nat>)
    ensures r.None? <==> forall i :: 0 <= i < |paths| ==> PathArgument(paths[i]) && pathExists(paths[i])
    ensures r.Some? ==> r.value < |paths| && (!PathArgument(paths[r.value]) || !pathExists(paths[r.value])) &&
                        forall j :: 0 <= j < r.value ==> PathArgument(paths[j]) && pathExists(paths[j])
  {
    if |paths| == 0 then None
    else if !PathArgument(paths[0]) || !pathExists(paths[0]) then Some(0)
    else match FirstMissing(paths[1..], pathExists)
      case None =>
        assert forall i :: 1 <= i < |paths| ==> paths[i] == paths[1..][i - 1];
        None
      case Some(i) =>
        assert forall j :: 1 <= j < i + 1 ==> paths[j] == paths[1..][j - 1];
        Some(i + 1)
  }

  /** What the validation loop raises at element `v`. */
  function PathError(v: Value): Exception {
    if PathArgument(v) then Exception(FileNotFoundError, "Image not found: " + Show(v))
    else Exception(TypeError, "stat: path should be string, bytes, os.PathLike or integer, not " + TypeName(v))
  }

  /**
   * `run_multi_image_analysis`: reject an empty list, then stop at the first element that
   * is not a path (`TypeError`) or does not exist (`FileNotFoundError`), then hand the list to
   * the crew. `crew` gives the final text or the failure message of the crew run.
   */
  function RunMultiImageAnalysis(imagePaths: Value, pathExists: Value -> bool, crew: Value -> Result<string, string>)
    : (r: Result<string, Exception>)
    ensures !Truthy(imagePaths) ==> r == Err(Exception(ValueError, "At least one image path must be provided"))
    ensures r.Ok? ==> Truthy(imagePaths) && crew(imagePaths) == Ok(r.value)
    ensures r.Ok? ==> Iterate(imagePaths).Some? &&
                      forall i :: 0 <= i < |Iterate(imagePaths).value| ==>
                        PathArgument(Iterate(imagePaths).value[i]) && pathExists(Iterate(imagePaths).value[i])
    ensures Truthy(imagePaths) && Iterate(imagePaths).Some? ==>
              match FirstMissing(Iterate(imagePaths).value, pathExists)
              case Some(i) =>
                var v := Iterate(imagePaths).value[i];
                && (PathArgument(v) ==> r == Err(Exception(FileNotFoundError, "Image not found: " + Show(v))))
                && (!PathArgument(v) ==> r.Err? && r.error.kind == TypeError)
              case None => r.Ok? <==> crew(imagePaths).Ok?
  {
    if !Truthy(imagePaths) then Err(Exception(ValueError, "At least one image path must be provided"))
    else match Iterate(imagePaths)
      case None => Err(Exception(TypeError, "object is not iterable"))
      case Some(paths) =>
        match FirstMissing(paths, pathExists)
        case Some(i) => Err(PathError(paths[i]))
        case None =>
          match crew(imagePaths)
          case Ok(text) => Ok(text)
          case Err(msg) => Err(Exception(CrewError, msg))
  }

  /** `any(name.lower().endswith(ext) for ext in image_extensions)`. */
  predicate HasImageExtension(name: string) {
    exists k :: 0 <= k < |ImageExtensions| && EndsWith(Lower(name), ImageExtensions[k])
  }

  /** The image files of one walked directory, joined to its path, in listing order. */
  function ImagesIn(root: string, files: seq<string>): (r: seq<string>)
    ensures |r| <= |files|
  {
    if |files| == 0 then []
    else (if HasImageExtension(files[0]) then [PathJoin(root, files[0])] else []) + ImagesIn(root, files[1..])
  }

  /** The nested `os.walk` loop: `walk` lists `(root, files)` in the order the walk visits them. */
  function ImageFiles(walk: seq<(string, seq<string>)>): seq<string> {
    if |walk| == 0 then [] else ImagesIn(walk[0].0, walk[0].1) + ImageFiles(walk[1..])
  }

  function JoinTo(root: string): string -> string {
    f => PathJoin(root, f)
  }

  /**
   * One directory contributes exactly its files with an image extension, in listing order
   * and with repeats kept, each joined to the directory.
   */
  lemma {:induction false} ImagesInSpec(root: string, files: seq<string>, name: string)
    ensures ImagesIn(root, files) == MapSeq(Filter(files, HasImageExtension), JoinTo(root))
    ensures PathJoin(root, name) in ImagesIn(root, files) <== name in files && HasImageExtension(name)
    ensures forall p :: p in ImagesIn(root, files) ==> exists j :: 0 <= j < |files| && HasImageExtension(files[j]) && p == PathJoin(root, files[j])
  {
    ImagesInMapsFilter(root, files);
    ImagesInMembers(root, files, name);
  }

  lemma {:induction false} ImagesInMembers(root: string, files: seq<string>, name: string)
    ensures PathJoin(root, name) in ImagesIn(root, files) <== name in files && HasImageExtension(name)
    ensures forall p :: p in ImagesIn(root, files) ==> exists j :: 0 <= j < |files| && HasImageExtension(files[j]) && p == PathJoin(root, files[j])
    decreases |files|
  {
    if |files| > 0 {
      ImagesInMembers(root, files[1..], name);
      assert forall j :: 1 <= j < |files| ==> files[j] == files[1..][j - 1];
    }
  }

  lemma {:induction false} ImagesInMapsFilter(root: string, files: seq<string>)
    ensures ImagesIn(root, files) == MapSeq(Filter(files, HasImageExtension), JoinTo(root))
    decreases |files|
  {
    if |files| > 0 {
      ImagesInMapsFilter(root, files[1..]);
      MapFilterCons(files, HasImageExtension, JoinTo(root));
    }
  }

  /** The walk order is kept: the images of earlier directories come before those of later ones. */
  lemma {:induction false} ImageFilesAppend(a: seq<(string, seq<string>)>, b: seq<(string, seq<string>)>)
    ensures ImageFiles(a + b) == ImageFiles(a) + ImageFiles(b)
    decreases |a|
  {
    if |a| == 0 {
      assert a + b == b;
    } else {
      assert (a + b)[0] == a[0] && (a + b)[1..] == a[1..] + b;
      ImageFilesAppend(a[1..], b);
    }
  }

  /** Every walked file with an image extension is listed, joined to its directory. */
  lemma {:induction false} ImageFilesSpec(walk: seq<(string, seq<string>)>, k: nat, name: string)
    requires k < |walk| && name in walk[k].1 && HasImageExtension(name)
    ensures PathJoin(walk[k].0, name) in ImageFiles(walk)
    decreases k
  {
    ImagesInSpec(walk[k].0, walk[k].1, name);
    if k > 0 {
      ImageFilesSpec(walk[1..], k - 1, name);
    }
  }

  /** Nothing else is listed: every listed path is a walked file with an image extension, joined to its directory. */
  lemma {:induction false} ImageFilesOnlyImages(walk: seq<(string, seq<string>)>, p: string)
    requires p in ImageFiles(walk)
    ensures exists k, j :: 0 <= k < |walk| && 0 <= j < |walk[k].1| &&
                           HasImageExtension(walk[k].1[j]) && p == PathJoin(walk[k].0, walk[k].1[j])
    decreases |walk|
  {
    if p in ImagesIn(walk[0].0, walk[0].1) {
      ImagesInSpec(walk[0].0, walk[0].1, p);
      var j :| 0 <= j < |walk[0].1| && HasImageExtension(walk[0].1[j]) && p == PathJoin(walk[0].0, walk[0].1[j]);
    } else {
      ImageFilesOnlyImages(walk[1..], p);
      var k, j :| 0 <= k < |walk[1..]| && 0 <= j < |walk[1..][k].1| &&
                  HasImageExtension(walk[1..][k].1[j]) && p == PathJoin(walk[1..][k].0, walk[1..][k].1[j]);
      assert walk[1..][k] == walk[k + 1];
    }
  }

  const BatchPrefix: string := "auto_batch_"

  /** `f"auto_batch_{k + 1:03d}"` for the batch starting at image `k * batch_size`. */
  function BatchId(k: nat): string {
    BatchPrefix + Format03(k + 1)
  }

  /** Different batches get different ids. */
  lemma {:induction false} BatchIdsDistinct(k: nat, l: nat)
    requires k != l
    ensures BatchId(k) != BatchId(l)
  {
    var a, b := Format03(k + 1), Format03(l + 1);
    Format03Injective(k + 1, l + 1);
    assert a != b;
    PrefixInjective(BatchPrefix, a, b);
    assert BatchId(k) == BatchPrefix + a && BatchId(l) == BatchPrefix + b;
  }

  /**
   * `create_batches_from_directory`. `dirExists` is `os.path.exists(base_dir)`. A step
   * of zero makes `range` raise; a negative step gives an empty range.
   */
  function CreateBatchesFromDirectory(baseDir: string, dirExists: bool, walk: seq<(string, seq<string>)>,
                                      batchSize: int, usePatentFormat: bool): (r: Result<seq<Fields>, Exception>)
    ensures !dirExists ==> r == Err(Exception(FileNotFoundError, "Directory not found: " + baseDir))
    ensures dirExists && |ImageFiles(walk)| == 0 ==> r == Ok([])
    ensures dirExists && |ImageFiles(walk)| > 0 && batchSize < 0 ==> r == Ok([])
    ensures r.Err? ==> !dirExists || batchSize == 0
    ensures r.Ok? && batchSize > 0 ==>
              var images := ImageFiles(walk);
              && |r.value| == CeilDiv(|images|, batchSize)
              && forall k :: 0 <= k < |r.value| ==>
                   r.value[k] == CreateImageBatch(Str(BatchId(k)), Arr(Strs(Chunk(images, batchSize)[k])), usePatentFormat)
  {
    if !dirExists then Err(Exception(FileNotFoundError, "Directory not found: " + baseDir))
    else
      var images := ImageFiles(walk);
      if |images| == 0 then Ok([])
      else if batchSize == 0 then Err(Exception(ValueError, "range() arg 3 must not be zero"))
      else if batchSize < 0 then Ok([])
      else
        Ok(ChunkBatches(images, batchSize, usePatentFormat))
  }

  /** The batching loop of `create_batches_from_directory`: one image batch per chunk, with its id. */
  function ChunkBatches(images: seq<string>, batchSize: nat, usePatentFormat: bool): (r: seq<Fields>)
    requires |images| > 0 && batchSize > 0
    ensures |r| == CeilDiv(|images|, batchSize)
    ensures forall k :: 0 <= k < |r| ==>
              r[k] == CreateImageBatch(Str(BatchId(k)), Arr(Strs(Chunk(images, batchSize)[k])), usePatentFormat)
  {
    var chunks := Chunk(images, batchSize);
    seq(|chunks|, k requires 0 <= k < |chunks| =>
        CreateImageBatch(Str(BatchId(k)), Arr(Strs(chunks[k])), usePatentFormat))
  }

  /** The image paths a batch carries, as the batch loop reads them; empty when they are not a list of strings. */
  function ImagePathsOf(batch: Fields): seq<string> {
    match ImageListOf(batch)
    case Arr(items) => (match AsStrings(items) case Some(ps) => ps case None => [])
    case _ => []
  }

  /** Reading the image lists back from the directory batches gives every discovered image, in order. */
  lemma {:induction false} DirectoryBatchesCoverImages(baseDir: string, walk: seq<(string, seq<string>)>, batchSize: int,
                                    usePatentFormat: bool)
    requires batchSize > 0
    ensures CreateBatchesFromDirectory(baseDir, true, walk, batchSize, usePatentFormat).Ok?
    ensures var batches := CreateBatchesFromDirectory(baseDir, true, walk, batchSize, usePatentFormat).value;
            Flatten(seq(|batches|, k requires 0 <= k < |batches| => ImagePathsOf(batches[k]))) == ImageFiles(walk)
  {
    var images := ImageFiles(walk);
    var batches := CreateBatchesFromDirectory(baseDir, true, walk, batchSize, usePatentFormat).value;
    var lists := seq(|batches|, k requires 0 <= k < |batches| => ImagePathsOf(batches[k]));
    if |images| > 0 {
      var chunks := Chunk(images, batchSize);
      forall k | 0 <= k < |batches|
        ensures lists[k] == chunks[k]
      {
        ImageListRoundTrip(Str(BatchId(k)), Arr(Strs(chunks[k])), usePatentFormat);
        AsStringsOfStrs(chunks[k]);
        if |chunks[k]| > 0 {
          assert Truthy(Arr(Strs(chunks[k])));
        }
      }
      assert lists == chunks;
      ChunkFlatten(images, batchSize);
    }
  }

  /** `f"{marker} Error processing {batch_id}: {str(e)}"`. */
  function ErrorMessage(id: Value, e: Exception): (r: string)
    ensures StartsWith(r, ErrorMarker)
  {
    var r := ErrorMarker + " Error processing " + Show(id) + ": " + e.message;
    assert r[..|ErrorMarker|] == ErrorMarker;
    r
  }

  /**
   * Why the batch loop ends with an exception: `len(img_list)` on a list that has no length
   * (a number or a boolean, raised before the `try`), or a list or dict id used as a dict key
   * (raised inside the `try` and again by the handler's own `results[batch_id] = ...`).
   * Both are TypeErrors that leave the function.
   */
  datatype BatchError = NoLength(imgList: Value) | Unhashable(id: Value)

  /** The text recorded for a batch that is run: its result, or the error message. */
  function Outcome(id: Value, imgList: Value, pathExists: Value -> bool, crew: Value -> Result<string, string>): string {
    match RunMultiImageAnalysis(imgList, pathExists, crew)
    case Ok(text) => text
    case Err(e) => ErrorMessage(id, e)
  }

  /** What the loop does with one batch. */
  function BatchStep(batch: Fields, pathExists: Value -> bool, crew: Value -> Result<string, string>)
    : (r: Step<(Value, string), BatchError>)
    ensures r.Skip? <==> !Truthy(GetOrNull(batch, "id")) || !Truthy(ImageListOf(batch))
    ensures Truthy(GetOrNull(batch, "id")) && Truthy(ImageListOf(batch)) &&
            (ImageListOf(batch).Bool? || ImageListOf(batch).Num?) ==>
              r == Stop(NoLength(ImageListOf(batch)))
    ensures Truthy(GetOrNull(batch, "id")) && Truthy(ImageListOf(batch)) &&
            !ImageListOf(batch).Bool? && !ImageListOf(batch).Num? &&
            (GetOrNull(batch, "id").Arr? || GetOrNull(batch, "id").Obj?) ==>
              r == Stop(Unhashable(GetOrNull(batch, "id")))
    ensures r.Keep? ==> !ImageListOf(batch).Bool? && !ImageListOf(batch).Num? &&
                        !GetOrNull(batch, "id").Arr? && !GetOrNull(batch, "id").Obj?
    ensures r.Keep? ==> r.item == (GetOrNull(batch, "id"), Outcome(GetOrNull(batch, "id"), ImageListOf(batch), pathExists, crew))
  {
    var id := GetOrNull(batch, "id");
    var imgList := ImageListOf(batch);
    if !Truthy(id) then Skip
    else if !Truthy(imgList) then Skip
    else if imgList.Bool? || imgList.Num? then Stop(NoLength(imgList))
    else if id.Arr? || id.Obj? then Stop(Unhashable(id))
    else Keep((id, Outcome(id, imgList, pathExists, crew)))
  }

  function BatchSteps(batches: seq<Fields>, pathExists: Value -> bool, crew: Value -> Result<string, string>)
    : (r: seq<Step<(Value, string), BatchError>>)
    ensures |r| == |batches|
    ensures forall i :: 0 <= i < |batches| ==> r[i] == BatchStep(batches[i], pathExists, crew)
  {
    seq(|batches|, i requires 0 <= i < |batches| => BatchStep(batches[i], pathExists, crew))
  }

  lemma {:induction false} BatchStepsAppend(a: seq<Fields>, b: seq<Fields>, pathExists: Value -> bool, crew: Value -> Result<string, string>)
    ensures BatchSteps(a + b, pathExists, crew) == BatchSteps(a, pathExists, crew) + BatchSteps(b, pathExists, crew)
  {
    assert forall i :: 0 <= i < |a + b| ==>
      BatchSteps(a + b, pathExists, crew)[i] == (BatchSteps(a, pathExists, crew) + BatchSteps(b, pathExists, crew))[i];
  }

  function EntryKey(e: (Value, string)): Option<Value> {
    Some(e.0)
  }

  function EntryValue(e: (Value, string)): string {
    e.1
  }

  /** The id a batch is recorded under, if the loop runs it. */
  function RunId(batch: Fields, pathExists: Value -> bool, crew: Value -> Result<string, string>): Option<Value> {
    var step := BatchStep(batch, pathExists, crew);
    if step.Keep? then Some(step.item.0) else None
  }

  /** The text a batch that is run records. */
  function RunText(batch: Fields, pathExists: Value -> bool, crew: Value -> Result<string, string>): string {
    Outcome(GetOrNull(batch, "id"), ImageListOf(batch), pathExists, crew)
  }

  function RunIdOf(pathExists: Value -> bool, crew: Value -> Result<string, string>): Fields -> Option<Value> {
    b => RunId(b, pathExists, crew)
  }

  function RunTextOf(pathExists: Value -> bool, crew: Value -> Result<string, string>): Fields -> string {
    b => RunText(b, pathExists, crew)
  }

  /**
   * The loop filling `results` from the items it kept writes the same dictionary as
   * `results[id] = text` over the batches themselves, batches that are skipped writing nothing.
   */
  lemma {:induction false} KeptItemsFillResults(batches: seq<Fields>, pathExists: Value -> bool, crew: Value -> Result<string, string>)
    requires Scan(BatchSteps(batches, pathExists, crew)).stopped.None?
    ensures LastWins(Scan(BatchSteps(batches, pathExists, crew)).items, EntryKey, EntryValue) ==
            LastWins(batches, RunIdOf(pathExists, crew), RunTextOf(pathExists, crew))
    decreases |batches|
  {
    if |batches| == 0 {
      return;
    }
    var init, b := batches[..|batches| - 1], batches[|batches| - 1];
    assert batches == init + [b];
    KeptItemsSnoc(init, b, pathExists, crew);
    KeptItemsFillResults(init, pathExists, crew);
    FillResultsSnoc(Scan(BatchSteps(init, pathExists, crew)).items, init, b, pathExists, crew);
  }

  /** Both ways of filling the results take one more batch the same way. */
  lemma {:induction false} FillResultsSnoc(kept: seq<(Value, string)>, init: seq<Fields>, b: Fields,
                                           pathExists: Value -> bool, crew: Value -> Result<string, string>)
    requires LastWins(kept, EntryKey, EntryValue) == LastWins(init, RunIdOf(pathExists, crew), RunTextOf(pathExists, crew))
    ensures var step := BatchStep(b, pathExists, crew);
            LastWins(kept + (if step.Keep? then [step.item] else []), EntryKey, EntryValue) ==
            LastWins(init + [b], RunIdOf(pathExists, crew), RunTextOf(pathExists, crew))
  {
    var key, val := RunIdOf(pathExists, crew), RunTextOf(pathExists, crew);
    LastWinsSnoc(init, b, key, val);
    var step := BatchStep(b, pathExists, crew);
    if step.Keep? {
      assert key(b) == Some(step.item.0) && val(b) == step.item.1;
      LastWinsSnoc(kept, step.item, EntryKey, EntryValue);
    } else {
      assert key(b).None?;
      assert kept + [] == kept;
    }
  }

  /** One more batch that does not end the loop adds its item, if it is run, to the kept items. */
  lemma {:induction false} KeptItemsSnoc(init: seq<Fields>, b: Fields, pathExists: Value -> bool, crew: Value -> Result<string, string>)
    requires Scan(BatchSteps(init + [b], pathExists, crew)).stopped.None?
    ensures Scan(BatchSteps(init, pathExists, crew)).stopped.None?
    ensures !BatchStep(b, pathExists, crew).Stop?
    ensures var step := BatchStep(b, pathExists, crew);
            Scan(BatchSteps(init + [b], pathExists, crew)).items ==
              Scan(BatchSteps(init, pathExists, crew)).items + (if step.Keep? then [step.item] else [])
  {
    BatchStepsAppend(init, [b], pathExists, crew);
    var steps, one := BatchSteps(init, pathExists, crew), BatchSteps([b], pathExists, crew);
    ScanAppend(steps, one);
    assert one[1..] == [];
    assert one[0] == BatchStep(b, pathExists, crew);
    if BatchStep(b, pathExists, crew).Skip? {
      assert Scan(steps).items + [] == Scan(steps).items;
    }
  }

  /**
   * `run_multiple_image_batches`: the loop ends with the first batch that raises; otherwise
   * `results[batch_id] = ...` for each batch that is run, in order, a later batch with the
   * same id overwriting an earlier one.
   */
  function RunMultipleImageBatches(batches: seq<Fields>, pathExists: Value -> bool, crew: Value -> Result<string, string>)
    : (r: Result<map<Value, string>, BatchError>)
    ensures r.Ok? <==> forall i :: 0 <= i < |batches| ==> !BatchStep(batches[i], pathExists, crew).Stop?
    ensures r.Err? ==>
              exists i :: 0 <= i < |batches| && BatchStep(batches[i], pathExists, crew) == Stop(r.error) &&
                          forall j :: 0 <= j < i ==> !BatchStep(batches[j], pathExists, crew).Stop?
    ensures r.Ok? ==> r.value == LastWins(batches, RunIdOf(pathExists, crew), RunTextOf(pathExists, crew))
  {
    var steps := BatchSteps(batches, pathExists, crew);
    var s := Scan(steps);
    match s.stopped
    case Some(u) =>
      var i :| 0 <= i < |steps| && steps[i] == Stop(u) && forall j :: 0 <= j < i ==> !steps[j].Stop?;
      Err(u)
    case None =>
      KeptItemsFillResults(batches, pathExists, crew);
      Ok(LastWins(s.items, EntryKey, EntryValue))
  }

  /**
   * An id is in the results exactly when some batch with that id is run, and it holds the
   * text of the last such batch.
   */
  lemma {:induction false} ResultsHoldLastRunBatch(batches: seq<Fields>, pathExists: Value -> bool,
                                                   crew: Value -> Result<string, string>, id: Value)
    requires RunMultipleImageBatches(batches, pathExists, crew).Ok?
    ensures var results := RunMultipleImageBatches(batches, pathExists, crew).value;
            id in results <==>
              exists i :: 0 <= i < |batches| && BatchStep(batches[i], pathExists, crew).Keep? &&
                          GetOrNull(batches[i], "id") == id
    ensures var results := RunMultipleImageBatches(batches, pathExists, crew).value;
            id in results ==>
              exists i :: 0 <= i < |batches| && BatchStep(batches[i], pathExists, crew).Keep? &&
                          GetOrNull(batches[i], "id") == id &&
                          results[id] == Outcome(id, ImageListOf(batches[i]), pathExists, crew) &&
                          forall j :: i < j < |batches| ==>
                            !(BatchStep(batches[j], pathExists, crew).Keep? && GetOrNull(batches[j], "id") == id)
  {
    var key, val := RunIdOf(pathExists, crew), RunTextOf(pathExists, crew);
    LastWinsSpec(batches, key, val, id);
    var last := LastIndexWith(batches, key, id);
    if last.Some? {
      var i := last.value;
      assert key(batches[i]) == Some(id);
      forall j | i < j < |batches|
        ensures !(BatchStep(batches[j], pathExists, crew).Keep? && GetOrNull(batches[j], "id") == id)
      {
        assert key(batches[j]) != Some(id);
      }
    } else {
      forall i | 0 <= i < |batches|
        ensures !(BatchStep(batches[i], pathExists, crew).Keep? && GetOrNull(batches[i], "id") == id)
      {
        assert key(batches[i]) != Some(id);
      }
    }
  }

  /** A batch with a falsy id or an empty image list leaves no trace in the results. */
  lemma {:induction false} SkippedBatchLeavesNoEntry(a: seq<Fields>, batch: Fields, b: seq<Fields>,
                                  pathExists: Value -> bool, crew: Value -> Result<string, string>)
    requires !Truthy(GetOrNull(batch, "id")) || !Truthy(ImageListOf(batch))
    ensures RunMultipleImageBatches(a + [batch] + b, pathExists, crew) == RunMultipleImageBatches(a + b, pathExists, crew)
  {
    BatchStepsAppend(a + [batch], b, pathExists, crew);
    BatchStepsAppend(a, [batch], pathExists, crew);
    BatchStepsAppend(a, b, pathExists, crew);
    assert BatchSteps([batch], pathExists, crew) == [Skip];
    ScanSkip(BatchSteps(a, pathExists, crew), BatchSteps(b, pathExists, crew));
  }

  /** A batch that is run records its result or its error under its id, overwriting an earlier batch with that id. */
  lemma {:induction false} LaterBatchOverwrites(batches: seq<Fields>, batch: Fields, pathExists: Value -> bool, crew: Value -> Result<string, string>)
    requires RunMultipleImageBatches(batches, pathExists, crew).Ok?
    requires BatchStep(batch, pathExists, crew).Keep?
    ensures var id := GetOrNull(batch, "id");
            RunMultipleImageBatches(batches + [batch], pathExists, crew) ==
              Ok(RunMultipleImageBatches(batches, pathExists, crew).value[id := Outcome(id, ImageListOf(batch), pathExists, crew)])
  {
    BatchStepsAppend(batches, [batch], pathExists, crew);
    var steps := BatchSteps(batches, pathExists, crew);
    var one := BatchSteps([batch], pathExists, crew);
    ScanAppend(steps, one);
    assert one[1..] == [];
    assert Scan(one).items == [BatchStep(batch, pathExists, crew).item];
    LastWinsSnoc(Scan(steps).items, BatchStep(batch, pathExists, crew).item, EntryKey, EntryValue);
  }

  /** Every recorded text is the crew's answer for that batch's list, or an error message starting with the marker. */
  lemma {:induction false} RecordedTextIsResultOrError(id: Value, imgList: Value, pathExists: Value -> bool, crew: Value -> Result<string, string>)
    ensures var text := Outcome(id, imgList, pathExists, crew);
            (RunMultiImageAnalysis(imgList, pathExists, crew).Ok? && crew(imgList) == Ok(text)) ||
            (RunMultiImageAnalysis(imgList, pathExists, crew).Err? && StartsWith(text, ErrorMarker))
  {
  }

  /** The membership test `run_patent_analysis` applies to each value of the dict. */
  predicate Qualifies(patent: Fields) {
    HasKey(patent, "id") && HasKey(patent, "img_paths_str")
  }

  /** `run_patent_analysis`: the dict's values that have both keys are run, in order; with none, a ValueError. */
  function RunPatentAnalysis(patents: seq<Fields>, pathExists: Value -> bool, crew: Value -> Result<string, string>)
    : (r: Result<Result<map<Value, string>, BatchError>, Exception>)
    ensures r.Err? <==> forall i :: 0 <= i < |patents| ==> !Qualifies(patents[i])
    ensures r.Err? ==> r.error == Exception(ValueError, "No valid patent entries found in the dictionary")
    ensures r.Ok? ==> r.value == RunMultipleImageBatches(Filter(patents, Qualifies), pathExists, crew)
  {
    var kept := Filter(patents, Qualifies);
    if |kept| == 0 then
      Err(Exception(ValueError, "No valid patent entries found in the dictionary"))
    else
      Ok(RunMultipleImageBatches(kept, pathExists, crew))
  }
}

=== FILE: patent_input.dfy ===
/** The work item the batch scripts hand to the crew, one per patent. */
module PatentInputs {
  import opened Base
  import opened Json

  /**
   * The dict built by `get_patent_metadadata` for one index line. `pdfFilePath` is
   * present only in the production loader; the test loader does not derive it.
   */
  datatype PatentInput = PatentInput(
    publicationNumber: Value,
    jsonFilePath: Value,
    category: string,
    absoluteImagePaths: seq<string>,
    imagePathStr: string,
    pdfFilePath: Option<string>)

  /** `d.get('image_file_paths', [])`. */
  function ImageList(fields: Fields): Value {
    match Get(fields, "image_file_paths")
    case Some(v) => v
    case None => Arr([])
  }

  /** The same work item as the dict the crew receives, keys in the order the source writes them. */
  function ToFields(p: PatentInput): (r: Fields)
    ensures Get(r, "publication_number") == Some(p.publicationNumber)
    ensures Get(r, "json_file_path") == Some(p.jsonFilePath)
    ensures Get(r, "batch_idx") == None
  {
    var r :=
      [ ("publication_number", p.publicationNumber),
        ("json_file_path", p.jsonFilePath),
        ("category", Str(p.category)),
        ("absolute_image_paths", Arr(Strs(p.absoluteImagePaths))),
        ("image_path_str", Str(p.imagePathStr)) ]
      + (match p.pdfFilePath
         case Some(pdf) => [("pdf_file_path", Str(pdf))]
         case None => []);
    GetSpec(r, "batch_idx");
    r
  }
}

=== FILE: seqs.dfy ===
/** Generic list folds shared by the loaders and the batch drivers. */
module Seqs {
  import opened Base

  /** `r` is what is left of `s` after deleting some of its elements, the rest kept in order. */
  predicate Subsequence<T(==)>(r: seq<T>, s: seq<T>)
    decreases |s|
  {
    |r| == 0 || (|s| > 0 && ((r[0] == s[0] && Subsequence(r[1..], s[1..])) || Subsequence(r, s[1..])))
  }

  /**
   * Python's `[x for x in s if p(x)]`: a sub-list of `s` in the original order that holds every
   * element satisfying `p` as often as `s` does, and nothing else.
   */
  function Filter<T(==)>(s: seq<T>, p: T -> bool): (r: seq<T>)
    ensures |r| <= |s|
    ensures forall i :: 0 <= i < |r| ==> r[i] in s && p(r[i])
    ensures forall i :: 0 <= i < |s| && p(s[i]) ==> s[i] in r
    ensures Subsequence(r, s)
    ensures forall i :: 0 <= i < |s| ==> multiset(r)[s[i]] == if p(s[i]) then multiset(s)[s[i]] else 0
  {
    if |s| == 0 then []
    else
      var rest := Filter(s[1..], p);
      FilterCons(s, rest, p);
      if p(s[0]) then [s[0]] + rest else rest
  }

  /** The inductive step of `Filter`'s contract: one more element in front of the input. */
  lemma {:induction false} FilterCons<T>(s: seq<T>, rest: seq<T>, p: T -> bool)
    requires |s| > 0
    requires |rest| <= |s| - 1
    requires forall i :: 0 <= i < |rest| ==> rest[i] in s[1..] && p(rest[i])
    requires forall i :: 0 <= i < |s| - 1 && p(s[1..][i]) ==> s[1..][i] in rest
    requires Subsequence(rest, s[1..])
    requires forall i :: 0 <= i < |s| - 1 ==>
               multiset(rest)[s[1..][i]] == if p(s[1..][i]) then multiset(s[1..])[s[1..][i]] else 0
    ensures var r := if p(s[0]) then [s[0]] + rest else rest;
            && |r| <= |s|
            && (forall i :: 0 <= i < |r| ==> r[i] in s && p(r[i]))
            && (forall i :: 0 <= i < |s| && p(s[i]) ==> s[i] in r)
            && Subsequence(r, s)
            && forall i :: 0 <= i < |s| ==> multiset(r)[s[i]] == if p(s[i]) then multiset(s)[s[i]] else 0
  {
    var t, r := s[1..], if p(s[0]) then [s[0]] + rest else rest;
    assert s == [s[0]] + t;
    if p(s[0]) {
      assert r[0] == s[0] && r[1..] == rest;
    }
    assert forall i :: 0 <= i < |r| ==> r[i] in s && p(r[i]);
    forall i | 0 <= i < |s| && p(s[i])
      ensures s[i] in r
    {
      if i > 0 {
        assert s[i] == t[i - 1];
      }
    }
    assert multiset(s) == multiset{s[0]} + multiset(t);
    assert multiset(r) == if p(s[0]) then multiset{s[0]} + multiset(rest) else multiset(rest);
    forall i | 0 <= i < |s|
      ensures multiset(r)[s[i]] == if p(s[i]) then multiset(s)[s[i]] else 0
    {
      var y := s[i];
      if y !in t {
        assert y == s[0];
        assert y !in rest;
      } else {
        var j :| 0 <= j < |t| && t[j] == y;
        assert multiset(rest)[t[j]] == if p(t[j]) then multiset(t)[t[j]] else 0;
      }
    }
  }

  /** Deleting elements never adds copies of one. */
  lemma {:induction false} SubsequenceCount<T>(r: seq<T>, s: seq<T>, x: T)
    requires Subsequence(r, s)
    ensures multiset(r)[x] <= multiset(s)[x]
    decreases |s|
  {
    if |r| > 0 {
      assert s == [s[0]] + s[1..];
      assert multiset(s) == multiset{s[0]} + multiset(s[1..]);
      if r[0] == s[0] && Subsequence(r[1..], s[1..]) {
        assert r == [r[0]] + r[1..];
        assert multiset(r) == multiset{r[0]} + multiset(r[1..]);
        SubsequenceCount(r[1..], s[1..], x);
      } else {
        SubsequenceCount(r, s[1..], x);
      }
    }
  }

  /**
   * `Filter`'s order and multiplicity clauses pin its result down: any sub-list of `s` holding
   * each element satisfying `p` as often as `s` does, and no other element, is `Filter(s, p)`.
   */
  lemma {:induction false} FilterUnique<T>(r: seq<T>, s: seq<T>, p: T -> bool)
    requires Subsequence(r, s)
    requires forall i :: 0 <= i < |s| ==> multiset(r)[s[i]] == if p(s[i]) then multiset(s)[s[i]] else 0
    ensures r == Filter(s, p)
    decreases |s|
  {
    if |s| == 0 {
      return;
    }
    var x, t := s[0], s[1..];
    assert s == [x] + t;
    assert multiset(s) == multiset{x} + multiset(t);
    assert multiset(r)[s[0]] == if p(x) then multiset(s)[x] else 0;
    if p(x) {
      assert |r| > 0;
      if !(r[0] == x && Subsequence(r[1..], t)) {
        SubsequenceCount(r, t, x);
        assert false;
      }
      var r' := r[1..];
      assert r == [x] + r';
      assert multiset(r) == multiset{x} + multiset(r');
      forall i | 0 <= i < |t|
        ensures multiset(r')[t[i]] == if p(t[i]) then multiset(t)[t[i]] else 0
      {
        assert t[i] == s[i + 1];
      }
      FilterUnique(r', t, p);
    } else {
      if |r| > 0 {
        assert r[0] != x;
      }
      assert Subsequence(r, t);
      forall i | 0 <= i < |t|
        ensures multiset(r)[t[i]] == if p(t[i]) then multiset(t)[t[i]] else 0
      {
        assert t[i] == s[i + 1];
      }
      FilterUnique(r, t, p);
    }
  }

  lemma {:induction false} FilterAppend<T>(a: seq<T>, b: seq<T>, p: T -> bool)
    ensures Filter(a + b, p) == Filter(a, p) + Filter(b, p)
    decreases |a|
  {
    if |a| > 0 {
      assert (a + b)[1..] == a[1..] + b;
      FilterAppend(a[1..], b, p);
    } else {
      assert a + b == b;
    }
  }

  /** `[f(x) for x in xs]`. */
  function MapSeq<A, B>(xs: seq<A>, f: A -> B): (r: seq<B>)
    ensures |r| == |xs|
    ensures forall i :: 0 <= i < |xs| ==> r[i] == f(xs[i])
  {
    seq(|xs|, i requires 0 <= i < |xs| => f(xs[i]))
  }

  lemma {:induction false} MapSeqAppend<A, B>(a: seq<A>, b: seq<A>, f: A -> B)
    ensures MapSeq(a + b, f) == MapSeq(a, f) + MapSeq(b, f)
  {
    assert forall i :: 0 <= i < |a + b| ==> MapSeq(a + b, f)[i] == (MapSeq(a, f) + MapSeq(b, f))[i];
  }

  /** Filtering then mapping, one element at a time from the front. */
  lemma {:induction false} MapFilterCons<A, B>(s: seq<A>, p: A -> bool, f: A -> B)
    requires |s| > 0
    ensures MapSeq(Filter(s, p), f) == (if p(s[0]) then [f(s[0])] else []) + MapSeq(Filter(s[1..], p), f)
  {
    var head := if p(s[0]) then [s[0]] else [];
    var tail := Filter(s[1..], p);
    assert Filter(s, p) == head + tail;
    MapSeqAppend(head, tail, f);
    assert MapSeq(head, f) == if p(s[0]) then [f(s[0])] else [];
  }

  /** A sequence that agrees with `a` on its first `|a|` places and with `b` on the rest is `a + b`. */
  lemma {:induction false} PointwiseAppend<T>(r: seq<T>, a: seq<T>, b: seq<T>)
    requires |r| == |a| + |b|
    requires forall i :: 0 <= i < |a| ==> r[i] == a[i]
    requires forall i :: 0 <= i < |b| ==> r[|a| + i] == b[i]
    ensures r == a + b
  {
    forall i | 0 <= i < |r|
      ensures r[i] == (a + b)[i]
    {
      if i >= |a| {
        assert r[|a| + (i - |a|)] == b[i - |a|];
      }
    }
  }

  /**
   * What a per-line loop decides for one input: drop it and go on, keep an item
   * and go on, or leave the loop (an exception, a `break`).
   */
  datatype Step<+T, +E> = Skip | Keep(item: T) | Stop(reason: E)

  /** The items kept before the loop was left, and why it was left (`None`: it ran to the end). */
  datatype ScanResult<+T, +E> = ScanResult(items: seq<T>, stopped: Option<E>)

  /** Runs a per-line loop over its decisions, in order. */
  function Scan<T, E>(steps: seq<Step<T, E>>): (r: ScanResult<T, E>)
    ensures |r.items| <= |steps|
    ensures r.stopped.None? <==> forall i :: 0 <= i < |steps| ==> !steps[i].Stop?
    ensures r.stopped.Some? ==>
              exists i :: 0 <= i < |steps| && steps[i] == Stop(r.stopped.value) &&
                          forall j :: 0 <= j < i ==> !steps[j].Stop?
    ensures forall x :: x in r.items ==> Keep(x) in steps
  {
    if |steps| == 0 then ScanResult([], None)
    else
      var r := Scan(steps[1..]);
      assert forall i :: 1 <= i < |steps| ==> steps[i] == steps[1..][i - 1];
      match steps[0]
      case Skip => r
      case Keep(x) => ScanResult([x] + r.items, r.stopped)
      case Stop(e) => ScanResult([], Some(e))
  }

  /** Running the loop over two pieces of input: the second piece only runs if the first did not stop. */
  lemma {:induction false} ScanAppend<T, E>(a: seq<Step<T, E>>, b: seq<Step<T, E>>)
    ensures Scan(a + b) ==
            if Scan(a).stopped.Some? then Scan(a)
            else ScanResult(Scan(a).items + Scan(b).items, Scan(b).stopped)
    decreases |a|
  {
    if |a| == 0 {
      assert a + b == b;
    } else {
      assert (a + b)[0] == a[0];
      assert (a + b)[1..] == a[1..] + b;
      ScanAppend(a[1..], b);
      var rest, tail := Scan(a[1..]), Scan(b);
      match a[0]
      case Skip =>
      case Keep(x) =>
        if rest.stopped.None? {
          assert [x] + (rest.items + tail.items) == ([x] + rest.items) + tail.items;
        }
      case Stop(e) =>
    }
  }

  /** A skipped input leaves no trace: the loop over the rest behaves as if it were absent. */
  lemma {:induction false} ScanSkip<T, E>(a: seq<Step<T, E>>, b: seq<Step<T, E>>)
    ensures Scan(a + [Skip] + b) == Scan(a + b)
  {
    var skip: seq<Step<T, E>> := [Skip];
    assert skip[1..] == [];
    assert Scan(skip) == ScanResult([], None);
    ScanAppend(a + skip, b);
    ScanAppend(a, skip);
    assert Scan(a + skip) == Scan(a);
    ScanAppend(a, b);
  }

  /** After an input that leaves the loop, nothing later is looked at. */
  lemma {:induction false} ScanStop<T, E>(a: seq<Step<T, E>>, e: E, b: seq<Step<T, E>>)
    ensures Scan(a + [Stop(e)] + b) ==
            if Scan(a).stopped.Some? then Scan(a) else ScanResult(Scan(a).items, Some(e))
  {
    ScanAppend(a + [Stop(e)], b);
    ScanAppend(a, [Stop(e)]);
  }

  /** A loop that keeps every input returns all of them, in order. */
  lemma {:induction false} ScanAllKept<T, E>(steps: seq<Step<T, E>>)
    requires forall i :: 0 <= i < |steps| ==> steps[i].Keep?
    ensures Scan(steps).stopped.None?
    ensures |Scan(steps).items| == |steps|
    ensures forall i :: 0 <= i < |steps| ==> steps[i] == Keep(Scan(steps).items[i])
    decreases |steps|
  {
    if |steps| > 0 {
      ScanAllKept(steps[1..]);
      assert forall i :: 1 <= i < |steps| ==> steps[i] == steps[1..][i - 1];
    }
  }

  /** Python's `sum(ss, [])`: the lists of `ss` one after another. */
  function Flatten<T>(ss: seq<seq<T>>): seq<T>
  {
    if |ss| == 0 then [] else ss[0] + Flatten(ss[1..])
  }

  lemma {:induction false} FlattenAppend<T>(a: seq<seq<T>>, b: seq<seq<T>>)
    ensures Flatten(a + b) == Flatten(a) + Flatten(b)
    decreases |a|
  {
    if |a| > 0 {
      assert (a + b)[1..] == a[1..] + b;
      FlattenAppend(a[1..], b);
    } else {
      assert a + b == b;
    }
  }

  /** The index of the last element of `s` that `key` maps to `k`, if any. */
  function LastIndexWith<T, K(==)>(s: seq<T>, key: T -> Option<K>, k: K): (r: Option<nat>)
    ensures r.Some? ==> r.value < |s| && key(s[r.value]) == Some(k)
    ensures r.Some? ==> forall j :: r.value < j < |s| ==> key(s[j]) != Some(k)
    ensures r.None? ==> forall j :: 0 <= j < |s| ==> key(s[j]) != Some(k)
  {
    if |s| == 0 then None
    else if key(s[|s| - 1]) == Some(k) then Some(|s| - 1)
    else LastIndexWith(s[..|s| - 1], key, k)
  }

  /**
   * The loop `for x in s: if key(x) is not None: m[key(x)] = val(x)`: a dictionary
   * filled in order, so a later element with the same key overwrites an earlier one.
   */
  function LastWins<T, K(==), V>(s: seq<T>, key: T -> Option<K>, val: T -> V): map<K, V>
  {
    if |s| == 0 then map[]
    else
      var m := LastWins(s[..|s| - 1], key, val);
      match key(s[|s| - 1])
      case None => m
      case Some(k) => m[k := val(s[|s| - 1])]
  }

  /** Each key of the folded map holds the value of the LAST element with that key, and only keyed elements contribute. */
  lemma {:induction false} LastWinsSpec<T, K, V>(s: seq<T>, key: T -> Option<K>, val: T -> V, k: K)
    ensures k in LastWins(s, key, val) <==> LastIndexWith(s, key, k).Some?
    ensures k in LastWins(s, key, val) ==> LastWins(s, key, val)[k] == val(s[LastIndexWith(s, key, k).value])
    decreases |s|
  {
    if |s| > 0 {
      LastWinsSpec(s[..|s| - 1], key, val, k);
    }
  }

  /** Appending one element only touches the entry of its own key. */
  lemma {:induction false} LastWinsSnoc<T, K, V>(s: seq<T>, x: T, key: T -> Option<K>, val: T -> V)
    ensures key(x).None? ==> LastWins(s + [x], key, val) == LastWins(s, key, val)
    ensures key(x).Some? ==> LastWins(s + [x], key, val) == LastWins(s, key, val)[key(x).value := val(x)]
  {
    assert (s + [x])[..|s + [x]| - 1] == s;
  }
}

/** Splitting a work list into consecutive fixed-size batches, the `range(0, n, size)` slicing loop. */
module Batching {
  import opened Base
  import opened Seqs

  lemma {:induction false} MulAtLeast(b: int, k: int)
    requires b > 0 && k >= 1
    ensures b * k >= b
    decreases k
  {
    if k > 1 {
      MulAtLeast(b, k - 1);
      assert b * k == b * (k - 1) + b;
    }
  }

  lemma {:induction false} MulMonotone(a: int, c: int, b: int)
    requires b > 0 && a >= c
    ensures a * b >= c * b
  {
    if a > c {
      MulAtLeast(b, a - c);
      assert b * (a - c) == a * b - c * b;
    }
  }

  lemma {:induction false} MulCancelLess(a: int, c: int, b: int)
    requires b > 0 && a * b < c * b
    ensures a < c
  {
    if a >= c {
      MulMonotone(a, c, b);
    }
  }

  /** Euclidean division has one quotient and one remainder. */
  lemma {:induction false} DivUnique(x: int, b: int, q: int, r: int)
    requires b > 0 && 0 <= r < b && x == q * b + r
    ensures x / b == q && x % b == r
  {
    var q', r' := x / b, x % b;
    assert q' * b + r' == x;
    assert (q - q') * b == r' - r;
    if q - q' >= 1 { MulAtLeast(b, q - q'); assert false; }
    if q' - q >= 1 { MulAtLeast(b, q' - q); assert false; }
  }

  lemma {:induction false} CeilDivStep(n: nat, size: nat)
    requires n > size > 0
    ensures CeilDiv(n, size) == 1 + CeilDiv(n - size, size)
  {
    var m := n - 1;
    var q, r := m / size, m % size;
    assert m == q * size + r;
    assert m + size == (q + 1) * size + r;
    DivUnique(m + size, size, q + 1, r);
  }

  /** `[xs[i:i+size] for i in range(0, len(xs), size)]`. */
  function Chunk<T>(xs: seq<T>, size: nat): (r: seq<seq<T>>)
    requires size > 0
    ensures |r| == CeilDiv(|xs|, size)
    ensures forall k :: 0 <= k < |r| ==> 0 < |r[k]| <= size
    ensures forall k :: 0 <= k < |r| - 1 ==> |r[k]| == size
    decreases |xs|
  {
    if |xs| == 0 then
      DivUnique(size - 1, size, 0, size - 1);
      []
    else if |xs| <= size then
      DivUnique(|xs| + size - 1, size, 1, |xs| - 1);
      [xs]
    else
      var rest := Chunk(xs[size..], size);
      CeilDivStep(|xs|, size);
      [xs[..size]] + rest
  }

  /** The batches, put back together in order, are the work list. */
  lemma {:induction false} ChunkFlatten<T>(xs: seq<T>, size: nat)
    requires size > 0
    ensures Flatten(Chunk(xs, size)) == xs
    decreases |xs|
  {
    if 0 < |xs| <= size {
      assert Flatten([xs]) == xs + Flatten([xs][1..]);
    } else if |xs| > size {
      var rest := Chunk(xs[size..], size);
      assert Chunk(xs, size) == [xs[..size]] + rest;
      assert ([xs[..size]] + rest)[1..] == rest;
      ChunkFlatten(xs[size..], size);
      assert xs == xs[..size] + xs[size..];
    }
  }

  /** Where batch `k` starts, counted up batch by batch. */
  function BatchStart(k: nat, size: nat): nat {
    if k == 0 then 0 else BatchStart(k - 1, size) + size
  }

  lemma {:induction false} BatchStartIsProduct(k: nat, size: nat)
    ensures BatchStart(k, size) == k * size
    decreases k
  {
    if k > 0 {
      BatchStartIsProduct(k - 1, size);
      assert k * size == (k - 1) * size + size;
    }
  }

  lemma {:induction false} ChunkSlicesFrom<T>(xs: seq<T>, size: nat, k: nat)
    requires size > 0
    requires k < |Chunk(xs, size)|
    ensures BatchStart(k, size) < |xs|
    ensures Chunk(xs, size)[k] == xs[BatchStart(k, size)..Min(BatchStart(k, size) + size, |xs|)]
    decreases |xs|
  {
    if |xs| <= size {
      assert Chunk(xs, size) == [xs];
    } else if k > 0 {
      var tail := xs[size..];
      ChunkTail(xs, size, k);
      ChunkSlicesFrom(tail, size, k - 1);
      var lo := BatchStart(k - 1, size);
      var hi := Min(lo + size, |tail|);
      SliceOfDrop(xs, size, lo, hi);
    }
  }

  /** Past the first batch, batch `k` is batch `k - 1` of what follows the first batch. */
  lemma {:induction false} ChunkTail<T>(xs: seq<T>, size: nat, k: nat)
    requires size > 0 && |xs| > size
    requires 0 < k < |Chunk(xs, size)|
    ensures k - 1 < |Chunk(xs[size..], size)|
    ensures Chunk(xs, size)[k] == Chunk(xs[size..], size)[k - 1]
  {
  }

  lemma {:induction false} SliceOfDrop<T>(xs: seq<T>, d: nat, lo: nat, hi: nat)
    requires d <= |xs| && lo <= hi <= |xs| - d
    ensures xs[d..][lo..hi] == xs[d + lo..d + hi]
  {
  }

  /** Batch `k` holds exactly the items at positions `k*size` up to `min((k+1)*size, |xs|)`. */
  lemma {:induction false} ChunkSlices<T>(xs: seq<T>, size: nat, k: nat)
    requires size > 0
    requires k < |Chunk(xs, size)|
    ensures k * size < |xs|
    ensures Chunk(xs, size)[k] == xs[k * size..Min((k + 1) * size, |xs|)]
  {
    ChunkSlicesFrom(xs, size, k);
    BatchStartIsProduct(k, size);
    MulSucc(k, size);
  }

  lemma {:induction false} MulSucc(k: nat, size: nat)
    ensures (k + 1) * size == k * size + size
  {
  }

  /** Position `i < n` lies in one of the `ceil(n / size)` batches. */
  lemma {:induction false} BatchIndexInRange(n: nat, size: nat, i: nat)
    requires size > 0 && i < n
    ensures i / size < CeilDiv(n, size)
  {
    var k, c, m := i / size, CeilDiv(n, size), n + size - 1;
    assert k * size + i % size == i;
    assert c * size + m % size == m;
    MulCancelLess(k, c, size);
  }

  /** The item at position `i` of the work list is item `i % size` of batch `i / size`. */
  lemma {:induction false} ChunkPosition<T>(xs: seq<T>, size: nat, i: nat)
    requires size > 0
    requires i < |xs|
    ensures i / size < |Chunk(xs, size)|
    ensures i % size < |Chunk(xs, size)[i / size]|
    ensures Chunk(xs, size)[i / size][i % size] == xs[i]
  {
    var k, j := i / size, i % size;
    BatchIndexInRange(|xs|, size, i);
    var lo := DivModParts(i, size);
    ChunkSlices(xs, size, k);
    var hi := Min((k + 1) * size, |xs|);
    assert Chunk(xs, size)[k] == xs[lo..hi];
    assert xs[lo..hi][j] == xs[i];
  }

  /** Euclidean division splits `i` into a batch start `(i / size) * size`, returned, plus `i % size`. */
  lemma {:induction false} DivModParts(i: nat, size: nat) returns (lo: nat)
    requires size > 0
    ensures lo == (i / size) * size
    ensures i == lo + i % size && i % size < size
    ensures (i / size + 1) * size == lo + size
  {
    lo := (i / size) * size;
  }
}

=== FILE: setup_data.dfy ===
/**
 * The knowledge-base builder: a last-write-wins map from publication number to
 * index record, the selection of artifacts to mirror, and the per-patent entries
 * of the category summary.
 */
module SetupData {
  import opened Base
  import opened Text
  import opened Json
  import opened Seqs
  import opened Sorting

  /** Why the outer `except Exception` of the loader ended the read early. */
  datatype LoadStop =
    | NotAnObject    // `.get` on a line that is not a JSON object
    | UnhashableKey  // a list or object `publication_number` cannot be a dict key (TypeError)

  /** `record.get('publication_number')`. */
  function PubOf(fields: Fields): Value {
    GetOrNull(fields, "publication_number")
  }

  /** One line of the input file: the `(publication_number, record)` pair it stores, if any. */
  function ClassifyLine(line: Line): (r: Step<(Value, Value), LoadStop>)
    ensures line.None? ==> r == Skip
    ensures line.Some? && !line.value.Obj? ==> r == Stop(NotAnObject)
    ensures r.Keep? ==> line.Some? && line.value.Obj? && r.item == (PubOf(line.value.fields), line.value)
    ensures r.Keep? ==> Truthy(r.item.0) && !r.item.0.Arr? && !r.item.0.Obj?
    ensures line.Some? && line.value.Obj? && !Truthy(PubOf(line.value.fields)) ==> r == Skip
    ensures line.Some? && line.value.Obj? && Truthy(PubOf(line.value.fields)) &&
            (PubOf(line.value.fields).Arr? || PubOf(line.value.fields).Obj?) ==>
              r == Stop(UnhashableKey)
    ensures line.Some? && line.value.Obj? && Truthy(PubOf(line.value.fields)) &&
            !PubOf(line.value.fields).Arr? && !PubOf(line.value.fields).Obj? ==>
              r.Keep?
  {
    match line
    case None => Skip
    case Some(Obj(fields)) =>
      var pub := PubOf(fields);
      if !Truthy(pub) then Skip
      else if pub.Arr? || pub.Obj? then Stop(UnhashableKey)
      else Keep((pub, Obj(fields)))
    case Some(_) => Stop(NotAnObject)
  }

  function LineSteps(lines: seq<Line>): (r: seq<Step<(Value, Value), LoadStop>>)
    ensures |r| == |lines|
    ensures forall i :: 0 <= i < |lines| ==> r[i] == ClassifyLine(lines[i])
  {
    seq(|lines|, i requires 0 <= i < |lines| => ClassifyLine(lines[i]))
  }

  lemma {:induction false} LineStepsAppend(a: seq<Line>, b: seq<Line>)
    ensures LineSteps(a + b) == LineSteps(a) + LineSteps(b)
  {
    var l, la, lb := LineSteps(a + b), LineSteps(a), LineSteps(b);
    forall i | 0 <= i < |a|
      ensures l[i] == la[i]
    {
      assert (a + b)[i] == a[i];
    }
    forall i | 0 <= i < |b|
      ensures l[|a| + i] == lb[i]
    {
      assert (a + b)[|a| + i] == b[i];
    }
    PointwiseAppend(l, la, lb);
  }

  function EntryKey(e: (Value, Value)): Option<Value> {
    Some(e.0)
  }

  function EntryValue(e: (Value, Value)): Value {
    e.1
  }

  /** `patent_data_map[publication_number] = patent_data` for each kept line, in file order. */
  function LoadLines(lines: seq<Line>): map<Value, Value> {
    LastWins(Scan(LineSteps(lines)).items, EntryKey, EntryValue)
  }

  /** `load_all_patent_data_from_jsonl`: `None` stands for a path that is not a file. */
  function LoadAll(file: Option<seq<Line>>): (r: map<Value, Value>)
    ensures file.None? ==> r == map[]
  {
    match file
    case None => map[]
    case Some(lines) => LoadLines(lines)
  }

  /** Appending one stored line, when loading has not stopped before it, sets that key and leaves the rest. */
  lemma {:induction false} LoadLinesSnoc(lines: seq<Line>, line: Line)
    requires Scan(LineSteps(lines)).stopped.None?
    ensures ClassifyLine(line).Skip? ==> LoadLines(lines + [line]) == LoadLines(lines)
    ensures ClassifyLine(line).Keep? ==>
              LoadLines(lines + [line]) == LoadLines(lines)[ClassifyLine(line).item.0 := ClassifyLine(line).item.1]
    ensures ClassifyLine(line).Stop? ==> LoadLines(lines + [line]) == LoadLines(lines)
  {
    LineStepsAppend(lines, [line]);
    ScanAppend(LineSteps(lines), LineSteps([line]));
    var step := ClassifyLine(line);
    var one := LineSteps([line]);
    assert one == [step];
    assert one[1..] == [];
    var items := Scan(LineSteps(lines)).items;
    if step.Keep? {
      assert Scan(one).items == [step.item];
      LastWinsSnoc(items, step.item, EntryKey, EntryValue);
    } else {
      assert Scan(one).items == [];
      assert items + [] == items;
    }
  }

  /** A later line with the same publication number overwrites the earlier record. */
  lemma {:induction false} LaterLineOverwrites(lines: seq<Line>, fields: Fields)
    requires Scan(LineSteps(lines)).stopped.None?
    requires Truthy(PubOf(fields)) && !PubOf(fields).Arr? && !PubOf(fields).Obj?
    ensures LoadLines(lines + [Some(Obj(fields))]) == LoadLines(lines)[PubOf(fields) := Obj(fields)]
  {
    LoadLinesSnoc(lines, Some(Obj(fields)));
  }

  /** An invalid JSON line is skipped and changes nothing, wherever it is. */
  lemma {:induction false} InvalidLineSkipped(a: seq<Line>, b: seq<Line>)
    ensures LoadLines(a + [None] + b) == LoadLines(a + b)
  {
    var x: Line := None;
    LineStepsAppend(a + [x], b);
    LineStepsAppend(a, [x]);
    LineStepsAppend(a, b);
    assert LineSteps([x]) == [Skip];
    ScanSkip(LineSteps(a), LineSteps(b));
  }

  /** A record without a truthy `publication_number` is not added, wherever it is. */
  lemma {:induction false} MissingPublicationNumberSkipped(a: seq<Line>, fields: Fields, b: seq<Line>)
    requires !Truthy(PubOf(fields))
    ensures LoadLines(a + [Some(Obj(fields))] + b) == LoadLines(a + b)
  {
    var x: Line := Some(Obj(fields));
    LineStepsAppend(a + [x], b);
    LineStepsAppend(a, [x]);
    LineStepsAppend(a, b);
    assert LineSteps([x]) == [Skip];
    ScanSkip(LineSteps(a), LineSteps(b));
  }

  /**
   * A line that ends the load (valid JSON that is not an object, or a list or dict
   * publication number) drops everything after it; what was stored before it is kept.
   */
  lemma {:induction false} StoppingLineTruncates(a: seq<Line>, line: Line, b: seq<Line>)
    requires ClassifyLine(line).Stop?
    ensures LoadLines(a + [line] + b) == LoadLines(a)
  {
    LineStepsAppend(a + [line], b);
    LineStepsAppend(a, [line]);
    assert LineSteps([line]) == [Stop(ClassifyLine(line).reason)];
    ScanStop(LineSteps(a), ClassifyLine(line).reason, LineSteps(b));
  }

  /** The key a line stores under, if it stores one. */
  function LineKey(line: Line): Option<Value> {
    match ClassifyLine(line)
    case Keep(e) => Some(e.0)
    case _ => None
  }

  function LineValue(line: Line): Value {
    match line
    case Some(v) => v
    case None => Null
  }

  /** When no line ends the read, the map holds, for each key, the record of the last line stored under it. */
  lemma {:induction false} LoadLinesLastWins(lines: seq<Line>)
    requires Scan(LineSteps(lines)).stopped.None?
    ensures LoadLines(lines) == LastWins(lines, LineKey, LineValue)
    decreases |lines|
  {
    if |lines| > 0 {
      var init, last := lines[..|lines| - 1], lines[|lines| - 1];
      assert lines == init + [last];
      LineStepsAppend(init, [last]);
      ScanAppend(LineSteps(init), LineSteps([last]));
      LoadLinesLastWins(init);
      LoadLinesSnoc(init, last);
      LastWinsSnoc(init, last, LineKey, LineValue);
    }
  }

  /** Looking up a publication number in the loaded map finds the last line that stored it. */
  lemma {:induction false} LookupFindsLastLine(lines: seq<Line>, pub: Value)
    requires Scan(LineSteps(lines)).stopped.None?
    ensures pub in LoadLines(lines) <==> LastIndexWith(lines, LineKey, pub).Some?
    ensures pub in LoadLines(lines) ==> LoadLines(lines)[pub] == lines[LastIndexWith(lines, LineKey, pub).value].value
  {
    LoadLinesLastWins(lines);
    LastWinsSpec(lines, LineKey, LineValue, pub);
  }

  /** `Path(name).suffix`: from the last `.`, unless that dot starts or ends the name. */
  function PathSuffix(name: string): (r: string)
    ensures r == "" || (r[0] == '.' && '.' !in r[1..] && |r| >= 2 && EndsWith(name, r) && |r| < |name|)
  {
    match LastIndexOf(name, '.')
    case Some(j) =>
      if 0 < j < |name| - 1 then
        assert name[|name| - |name[j..]|..] == name[j..];
        name[j..]
      else ""
    case None => ""
  }

  /**
   * The suffix is non-empty exactly when the name's last dot is neither its first nor its
   * last character, and it is then the name from that dot on.
   */
  lemma {:induction false} PathSuffixSpec(name: string)
    ensures PathSuffix(name) != "" <==> exists i :: 0 < i < |name| - 1 && name[i] == '.' && '.' !in name[i + 1..]
    ensures forall i :: 0 < i < |name| - 1 && name[i] == '.' && '.' !in name[i + 1..] ==> PathSuffix(name) == name[i..]
  {
  }

  /** `Path(name).stem`: the name without its suffix. */
  function PathStem(name: string): (r: string)
    ensures r + PathSuffix(name) == name
  {
    match LastIndexOf(name, '.')
    case Some(i) =>
      if 0 < i < |name| - 1 then
        assert name[..i] + name[i..] == name;
        name[..i]
      else name
    case None => name
  }

  /** A numbered image: `.png` in any letter case, with an all-digit stem. */
  predicate IsNumberedImage(name: string) {
    Lower(PathSuffix(name)) == ".png" && IsDigits(PathStem(name))
  }

  /** The artifact test of the copy loop: `{publication_number}.pdf`, or a numbered image. */
  predicate Selected(pub: string, name: string) {
    name == pub + ".pdf" || IsNumberedImage(name)
  }

  /** `n.png` with `n` a decimal number is a numbered image, whatever the letter case of `png`. */
  lemma {:induction false} NumberedImageNames(digits: string, ext: string)
    requires IsDigits(digits)
    requires |ext| == 3 && Lower(ext) == "png"
    ensures IsNumberedImage(digits + "." + ext)
  {
    NoDotInPng(ext);
    DottedNameParts(digits, ext);
    LowerCons('.', ext);
    assert Lower("." + ext) == "." + "png" == ".png";
  }

  /** With no dot after the last one and text on both sides of it, the name splits at that dot. */
  lemma {:induction false} DottedNameParts(stem: string, ext: string)
    requires |stem| > 0 && |ext| > 0 && '.' !in ext
    ensures PathSuffix(stem + "." + ext) == "." + ext
    ensures PathStem(stem + "." + ext) == stem
  {
    LastIndexOfLast(stem, '.', ext);
  }

  lemma {:induction false} NoDotInPng(ext: string)
    requires |ext| == 3 && Lower(ext) == "png"
    ensures '.' !in ext
  {
    assert LowerChar(ext[0]) == 'p' && LowerChar(ext[1]) == 'n' && LowerChar(ext[2]) == 'g';
  }

  /** A file whose stem has a non-digit is never copied as an image; only the PDF name is then accepted. */
  lemma {:induction false} NonNumericStemRejected(pub: string, name: string)
    requires !IsDigits(PathStem(name))
    ensures Selected(pub, name) <==> name == pub + ".pdf"
  {
  }

  function Selector(pub: string): string -> bool {
    name => Selected(pub, name)
  }

  /** The files the copy loop copies, in listing order. */
  function CopiedFiles(pub: string, files: seq<string>): (r: seq<string>)
    ensures |r| <= |files|
    ensures forall i :: 0 <= i < |r| ==> r[i] in files && Selected(pub, r[i])
    ensures forall i :: 0 <= i < |files| && Selected(pub, files[i]) ==> files[i] in r
    ensures Subsequence(r, files)
    ensures forall i :: 0 <= i < |files| ==>
              multiset(r)[files[i]] == if Selected(pub, files[i]) then multiset(files)[files[i]] else 0
  {
    Filter(files, Selector(pub))
  }

  /** One more file of the listing adds one copied file exactly when that file is selected. */
  lemma {:induction false} CopiedPrefixStep(pub: string, files: seq<string>, i: nat)
    requires i < |files|
    ensures |CopiedFiles(pub, files[..i + 1])| == |CopiedFiles(pub, files[..i])| + if Selected(pub, files[i]) then 1 else 0
  {
    var one := [files[i]];
    assert files[..i + 1] == files[..i] + one;
    FilterAppend(files[..i], one, Selector(pub));
    assert one[1..] == [];
  }

  /** The copy loop of one patent directory: `files_copied_count` ends equal to the number of files copied. */
  method CountCopied(pub: string, files: seq<string>) returns (filesCopiedCount: nat)
    ensures filesCopiedCount == |CopiedFiles(pub, files)|
  {
    filesCopiedCount := 0;
    var i := 0;
    while i < |files|
      invariant i <= |files|
      invariant filesCopiedCount == |CopiedFiles(pub, files[..i])|
    {
      CopiedPrefixStep(pub, files, i);
      if Selected(pub, files[i]) {
        filesCopiedCount := filesCopiedCount + 1;
      }
      i := i + 1;
    }
    assert files[..i] == files;
  }

  /** An entry of the source artifacts directory as `iterdir` lists it; only sub-directories are visited. */
  datatype DirItem = SubDir(name: string, files: seq<string>) | PlainFile(name: string)

  /** What the filesystem reports during the sync, given as inputs. */
  datatype Effects = Effects(
    copyOk: string -> bool,           // the patent's `mkdir` and every `copy2` return normally
    writeOk: string -> bool,          // writing `{pub}.json` returns normally
    listing: string -> seq<string>,   // the names in `knowledge/.../{pub}/` after the loop (empty if not a directory)
    pathExists: string -> bool,       // whether a path exists after the loop
    summaryOk: bool)                  // opening and writing `{CATEGORY}.jsonl` return normally

  /** The sub-directory becomes a processed patent: copied, found in the map with truthy data, and its JSON written. */
  predicate Processed(item: DirItem, data: map<Value, Value>, fx: Effects) {
    && item.SubDir?
    && fx.copyOk(item.name)
    && Str(item.name) in data && Truthy(data[Str(item.name)])
    && fx.writeOk(item.name)
  }

  /** `processed_publication_numbers` after the loop over the source directory. */
  function ProcessedPubs(items: seq<DirItem>, data: map<Value, Value>, fx: Effects): (r: seq<string>)
    ensures |r| <= |items|
    ensures forall p :: p in r <==> exists i :: 0 <= i < |items| && Processed(items[i], data, fx) && items[i].name == p
  {
    if |items| == 0 then []
    else
      var rest := ProcessedPubs(items[1..], data, fx);
      assert forall i :: 1 <= i < |items| ==> items[i] == items[1..][i - 1];
      if Processed(items[0], data, fx) then [items[0].name] + rest else rest
  }

  function ProcessedBy(data: map<Value, Value>, fx: Effects): DirItem -> bool {
    item => Processed(item, data, fx)
  }

  function DirName(item: DirItem): string {
    item.name
  }

  /**
   * The processed numbers are the names of the processed sub-directories in `iterdir`
   * order, one per such entry: the list an independent filter-then-map builds.
   */
  lemma {:induction false} ProcessedPubsInOrder(items: seq<DirItem>, data: map<Value, Value>, fx: Effects)
    ensures ProcessedPubs(items, data, fx) == MapSeq(Filter(items, ProcessedBy(data, fx)), DirName)
    decreases |items|
  {
    if |items| > 0 {
      ProcessedPubsInOrder(items[1..], data, fx);
      MapFilterCons(items, ProcessedBy(data, fx), DirName);
    }
  }

  /** The numbered images among `names`, in listing order. */
  function NumberedImages(names: seq<string>): (r: seq<string>)
    ensures |r| <= |names|
    ensures forall i :: 0 <= i < |r| ==> r[i] in names && IsNumberedImage(r[i])
    ensures forall j :: 0 <= j < |names| && IsNumberedImage(names[j]) ==> names[j] in r
    ensures Subsequence(r, names)
    ensures forall j :: 0 <= j < |names| ==>
              multiset(r)[names[j]] == if IsNumberedImage(names[j]) then multiset(names)[names[j]] else 0
  {
    Filter(names, IsNumberedImage)
  }

  /** `file_item.resolve()` for each numbered image of `dir`, in listing order. */
  function ImagePaths(dir: string, names: seq<string>): (r: seq<string>)
    ensures |r| == |NumberedImages(names)|
    ensures forall i :: 0 <= i < |r| ==> r[i] == dir + "/" + NumberedImages(names)[i]
  {
    var images := NumberedImages(names);
    seq(|images|, i requires 0 <= i < |images| => dir + "/" + images[i])
  }

  /** `sorted(...)` of those paths. */
  function SortedImagePaths(dir: string, names: seq<string>): (r: seq<string>)
    ensures Sorted(r)
    ensures multiset(r) == multiset(ImagePaths(dir, names))
  {
    Sort(ImagePaths(dir, names))
  }

  /** `path if path.exists() else None`. */
  function PathOrNull(path: string, fx: Effects): Value {
    if fx.pathExists(path) then Str(path) else Null
  }

  /** A summary line: four fields, in the order the source writes them. */
  function EntryFields(pub: Value, json: Value, pdf: Value, images: Value): (r: Fields)
    ensures Keys(r) == ["publication_number", "json_file_path", "pdf_file_path", "image_file_paths"]
    ensures Get(r, "publication_number") == Some(pub)
    ensures Get(r, "json_file_path") == Some(json)
    ensures Get(r, "pdf_file_path") == Some(pdf)
    ensures Get(r, "image_file_paths") == Some(images)
  {
    var f4: Fields := [("image_file_paths", images)];
    var f3: Fields := [("pdf_file_path", pdf)] + f4;
    var f2: Fields := [("json_file_path", json)] + f3;
    GetCons("image_file_paths", images, [], "image_file_paths");
    GetCons("pdf_file_path", pdf, f4, "pdf_file_path");
    GetCons("pdf_file_path", pdf, f4, "image_file_paths");
    GetCons("json_file_path", json, f3, "json_file_path");
    GetCons("json_file_path", json, f3, "pdf_file_path");
    GetCons("json_file_path", json, f3, "image_file_paths");
    GetCons("publication_number", pub, f2, "publication_number");
    GetCons("publication_number", pub, f2, "json_file_path");
    GetCons("publication_number", pub, f2, "pdf_file_path");
    GetCons("publication_number", pub, f2, "image_file_paths");
    [("publication_number", pub)] + f2
  }

  /** `knowledge_base_path / pub_num`. */
  function PatentDir(kb: string, pub: string): string {
    kb + "/" + pub
  }

  function JsonPath(kb: string, pub: string): string {
    PatentDir(kb, pub) + "/" + pub + ".json"
  }

  function PdfPath(kb: string, pub: string): string {
    PatentDir(kb, pub) + "/" + pub + ".pdf"
  }

  /** The summary line of one processed patent, under the knowledge directory `kb`. */
  function SummaryEntry(kb: string, pub: string, fx: Effects): (r: Fields)
    ensures Keys(r) == ["publication_number", "json_file_path", "pdf_file_path", "image_file_paths"]
    ensures Get(r, "publication_number") == Some(Str(pub))
    ensures Get(r, "json_file_path") == Some(if fx.pathExists(JsonPath(kb, pub)) then Str(JsonPath(kb, pub)) else Null)
    ensures Get(r, "pdf_file_path") == Some(if fx.pathExists(PdfPath(kb, pub)) then Str(PdfPath(kb, pub)) else Null)
    ensures Get(r, "image_file_paths") == Some(Arr(Strs(SortedImagePaths(PatentDir(kb, pub), fx.listing(pub)))))
  {
    EntryFields(Str(pub), PathOrNull(JsonPath(kb, pub), fx), PathOrNull(PdfPath(kb, pub), fx),
                Arr(Strs(SortedImagePaths(PatentDir(kb, pub), fx.listing(pub)))))
  }

  /** How `synchronize_patent_knowledge_base` ends. */
  datatype SyncOutcome =
    | NothingLoaded                                           // the map is empty: return before anything else
    | KnowledgeDirFailed                                      // creating the knowledge directory raised
    | NoSourceDir                                             // the source artifacts path is not a directory
    | Synced(processed: seq<string>, summary: Option<seq<Fields>>, summaryWritten: bool)
      // `summary`: the entries built (`None` when no patent was processed); `summaryWritten`: the file write succeeded

  /**
   * `synchronize_patent_knowledge_base`: `file` is the input JSONL (`None` when it is
   * not a file), `items` the listing of the source directory, `kb` the knowledge directory.
   */
  function Synchronize(file: Option<seq<Line>>, kbDirOk: bool, sourceIsDir: bool, items: seq<DirItem>,
                       kb: string, fx: Effects): (r: SyncOutcome)
    ensures r.NothingLoaded? <==> |LoadAll(file)| == 0
    ensures r.Synced? <==> |LoadAll(file)| > 0 && kbDirOk && sourceIsDir
    ensures r.Synced? ==> r.processed == ProcessedPubs(items, LoadAll(file), fx)
    ensures r.Synced? ==> (r.summaryWritten <==> |r.processed| > 0 && fx.summaryOk)
    ensures r.Synced? ==>
              forall p :: p in r.processed <==>
                exists i :: 0 <= i < |items| && Processed(items[i], LoadAll(file), fx) && items[i].name == p
    ensures r.Synced? ==> (r.summary.None? <==> |r.processed| == 0)
    ensures r.Synced? && r.summary.Some? ==>
              |r.summary.value| == |r.processed| &&
              forall i :: 0 <= i < |r.processed| ==>
                Get(r.summary.value[i], "publication_number") == Some(Str(r.processed[i])) &&
                r.summary.value[i] == SummaryEntry(kb, r.processed[i], fx)
  {
    var data := LoadAll(file);
    if |data| == 0 then NothingLoaded
    else if !kbDirOk then KnowledgeDirFailed
    else if !sourceIsDir then NoSourceDir
    else
      var processed := ProcessedPubs(items, data, fx);
      if |processed| == 0 then Synced(processed, None, false)
      else
        var entries := seq(|processed|, i requires 0 <= i < |processed| => SummaryEntry(kb, processed[i], fx));
        Synced(processed, Some(entries), fx.summaryOk)
  }
}

=== FILE: sorting.dfy ===
/** Python's `sorted` on a list of strings: code-point lexicographic order, as a functional insertion sort. */
module Sorting {

  /** `a <= b` on Python strings: `a` is a prefix of `b`, or is smaller at the first difference. */
  predicate LexLe(a: string, b: string)
    decreases |a|
  {
    |a| == 0 || (|b| > 0 && (a[0] < b[0] || (a[0] == b[0] && LexLe(a[1..], b[1..]))))
  }

  lemma {:induction false} LexLeTotal(a: string, b: string)
    ensures LexLe(a, b) || LexLe(b, a)
    decreases |a|
  {
    if |a| > 0 && |b| > 0 && a[0] == b[0] {
      LexLeTotal(a[1..], b[1..]);
    }
  }

  lemma {:induction false} LexLeTrans(a: string, b: string, c: string)
    requires LexLe(a, b) && LexLe(b, c)
    ensures LexLe(a, c)
    decreases |a|
  {
    if |a| > 0 && a[0] == b[0] && b[0] == c[0] {
      LexLeTrans(a[1..], b[1..], c[1..]);
    }
  }

  predicate Sorted(s: seq<string>) {
    forall i, j :: 0 <= i < j < |s| ==> LexLe(s[i], s[j])
  }

  /** Puts `x` before the first element it does not exceed. */
  function Insert(x: string, s: seq<string>): (r: seq<string>)
    requires Sorted(s)
    ensures multiset(r) == multiset(s) + multiset{x}
    ensures Sorted(r)
    ensures |r| == |s| + 1
    decreases |s|
  {
    if |s| == 0 then [x]
    else if LexLe(x, s[0]) then
      InsertFront(x, s);
      [x] + s
    else
      LexLeTotal(x, s[0]);
      var rest := Insert(x, s[1..]);
      assert s == [s[0]] + s[1..];
      InsertBehind(s[0], x, s[1..], rest);
      [s[0]] + rest
  }

  lemma {:induction false} InsertFront(x: string, s: seq<string>)
    requires Sorted(s) && |s| > 0 && LexLe(x, s[0])
    ensures Sorted([x] + s)
  {
    forall j | 0 < j < |s| + 1
      ensures LexLe(([x] + s)[0], ([x] + s)[j])
    {
      if j > 1 {
        LexLeTrans(x, s[0], s[j - 1]);
      }
    }
  }

  lemma {:induction false} InsertBehind(y: string, x: string, tail: seq<string>, rest: seq<string>)
    requires Sorted([y] + tail) && LexLe(y, x)
    requires Sorted(rest) && multiset(rest) == multiset(tail) + multiset{x}
    ensures Sorted([y] + rest)
  {
    forall j | 0 <= j < |rest|
      ensures LexLe(y, rest[j])
    {
      assert rest[j] in multiset(rest);
      if rest[j] != x {
        assert rest[j] in multiset(tail);
        assert rest[j] in tail;
        var k :| 0 <= k < |tail| && tail[k] == rest[j];
        assert ([y] + tail)[0] == y && ([y] + tail)[k + 1] == tail[k];
      }
    }
    forall i, j | 0 <= i < j < |rest| + 1
      ensures LexLe(([y] + rest)[i], ([y] + rest)[j])
    {
      if i > 0 {
        assert ([y] + rest)[i] == rest[i - 1] && ([y] + rest)[j] == rest[j - 1];
      }
    }
  }

  /** `sorted(s)`: the same strings, in non-decreasing order. */
  function Sort(s: seq<string>): (r: seq<string>)
    ensures Sorted(r)
    ensures multiset(r) == multiset(s)
    ensures |r| == |s|
  {
    if |s| == 0 then []
    else
      var init, last := s[..|s| - 1], s[|s| - 1];
      assert s == init + [last];
      assert multiset(s) == multiset(init) + multiset{last};
      Insert(last, Sort(init))
  }
}

=== FILE: test_async_main.dfy ===
/**
 * The renamed copy of the batch runner: a tolerant loader, batches of ten, every
 * batch run, and one try around the whole loop, followed by a check that each
 * result has its output file.
 */
module TestAsyncMain {
  import opened Base
  import opened Text
  import opened Json
  import opened Seqs
  import opened Batching
  import opened PatentInputs

  const BatchSize: nat := 10
  const OutputDir: string := "output"

  /** Why the outer `except Exception` ended the load early. */
  datatype LoadFailure =
    | NotAnObject    // `.get` on a line that is not a JSON object
    | BadImageList   // the image list is not iterable, or holds a non-string (`os.path.isabs` raises)

  /** What the test loader guarantees of every work item it returns. */
  predicate Loaded(p: PatentInput, category: string) {
    && Truthy(p.publicationNumber)
    && Truthy(p.jsonFilePath)
    && p.category == category
    && p.pdfFilePath.None?
    && p.imagePathStr == Join("\n", p.absoluteImagePaths)
  }

  /**
   * A record the test loader keeps: truthy publication number and JSON path, and an
   * image list (`[]` when missing) that iterates to strings.
   */
  predicate CompleteRecord(fields: Fields) {
    && Truthy(GetOrNull(fields, "publication_number"))
    && Truthy(GetOrNull(fields, "json_file_path"))
    && Iterate(ImageList(fields)).Some?
    && AsStrings(Iterate(ImageList(fields)).value).Some?
  }

  /**
   * One parsed index object. The image paths are only inspected, never filtered:
   * every path is kept whether or not it is absolute or exists.
   */
  function ReadRecord(fields: Fields, category: string): (r: Step<PatentInput, LoadFailure>)
    ensures r.Keep? <==> CompleteRecord(fields)
    ensures r.Skip? <==> !Truthy(GetOrNull(fields, "publication_number")) || !Truthy(GetOrNull(fields, "json_file_path"))
    ensures r.Keep? ==> Loaded(r.item, category)
    ensures r.Keep? ==> r.item.publicationNumber == GetOrNull(fields, "publication_number")
    ensures r.Keep? ==> r.item.jsonFilePath == GetOrNull(fields, "json_file_path")
    ensures Truthy(GetOrNull(fields, "publication_number")) && Truthy(GetOrNull(fields, "json_file_path")) &&
            (Iterate(ImageList(fields)).None? || AsStrings(Iterate(ImageList(fields)).value).None?) ==>
              r == Stop(BadImageList)
    ensures r.Keep? ==> Iterate(ImageList(fields)) == Some(Strs(r.item.absoluteImagePaths))
    ensures r.Keep? && ImageList(fields).Arr? ==> Strs(r.item.absoluteImagePaths) == ImageList(fields).items
    ensures r.Stop? ==> r.reason == BadImageList
  {
    var pub := GetOrNull(fields, "publication_number");
    var jsonPath := GetOrNull(fields, "json_file_path");
    if !(Truthy(pub) && Truthy(jsonPath)) then Skip
    else match Iterate(ImageList(fields))
      case None => Stop(BadImageList)
      case Some(items) =>
        match AsStrings(items)
        case None => Stop(BadImageList)
        case Some(paths) =>
          assert Strs(paths) == items;
          Keep(PatentInput(pub, jsonPath, category, paths, Join("\n", paths), None))
  }

  /** One line: a malformed line is skipped, a non-object line ends the load. */
  function ClassifyLine(line: Line, category: string): (r: Step<PatentInput, LoadFailure>)
    ensures line.None? ==> r == Skip
    ensures line.Some? && !line.value.Obj? ==> r == Stop(NotAnObject)
    ensures r.Keep? ==> Loaded(r.item, category)
  {
    match line
    case None => Skip
    case Some(Obj(fields)) => ReadRecord(fields, category)
    case Some(_) => Stop(NotAnObject)
  }

  function LineSteps(lines: seq<Line>, category: string): (r: seq<Step<PatentInput, LoadFailure>>)
    ensures |r| == |lines|
    ensures forall i :: 0 <= i < |lines| ==> r[i] == ClassifyLine(lines[i], category)
  {
    seq(|lines|, i requires 0 <= i < |lines| => ClassifyLine(lines[i], category))
  }

  lemma {:induction false} LineStepsAppend(a: seq<Line>, b: seq<Line>, category: string)
    ensures LineSteps(a + b, category) == LineSteps(a, category) + LineSteps(b, category)
  {
    var l, la, lb := LineSteps(a + b, category), LineSteps(a, category), LineSteps(b, category);
    forall i | 0 <= i < |a|
      ensures l[i] == la[i]
    {
      assert (a + b)[i] == a[i];
    }
    forall i | 0 <= i < |b|
      ensures l[|a| + i] == lb[i]
    {
      assert (a + b)[|a| + i] == b[i];
    }
    PointwiseAppend(l, la, lb);
  }

  /** The records kept before the end of the file or the first failure; the failure is printed and swallowed. */
  function LoadLines(lines: seq<Line>, category: string): seq<PatentInput> {
    Scan(LineSteps(lines, category)).items
  }

  /** Every item the test loader returns satisfies `Loaded`. */
  lemma {:induction false} LoadLinesLoaded(lines: seq<Line>, category: string)
    ensures |LoadLines(lines, category)| <= |lines|
    ensures forall x :: x in LoadLines(lines, category) ==> Loaded(x, category)
  {
    var steps := LineSteps(lines, category);
    forall x | x in Scan(steps).items
      ensures Loaded(x, category)
    {
      assert Keep(x) in steps;
      var j :| 0 <= j < |steps| && steps[j] == Keep(x);
    }
  }

  /** `get_patent_metadadata` of the test runner: a missing index gives an empty list, never an error. */
  function LoadIndex(index: Option<seq<Line>>, category: string): (r: seq<PatentInput>)
    ensures index.None? ==> r == []
    ensures index.Some? ==> |r| <= |index.value|
    ensures forall i :: 0 <= i < |r| ==> Loaded(r[i], category)
  {
    match index
    case None => []
    case Some(lines) =>
      LoadLinesLoaded(lines, category);
      LoadLines(lines, category)
  }

  /** A malformed line is skipped: the load is the same as without it. */
  lemma {:induction false} MalformedLineSkipped(a: seq<Line>, b: seq<Line>, category: string)
    ensures LoadLines(a + [None] + b, category) == LoadLines(a + b, category)
  {
    var x: Line := None;
    LineStepsAppend(a + [x], b, category);
    LineStepsAppend(a, [x], category);
    LineStepsAppend(a, b, category);
    assert LineSteps([x], category) == [Skip];
    ScanSkip(LineSteps(a, category), LineSteps(b, category));
  }

  /** A line that is valid JSON but not an object ends the load: nothing after it is read. */
  lemma {:induction false} NonObjectLineTruncates(a: seq<Line>, v: Value, b: seq<Line>, category: string)
    requires !v.Obj?
    ensures LoadLines(a + [Some(v)] + b, category) == LoadLines(a, category)
  {
    var x: Line := Some(v);
    LineStepsAppend(a + [x], b, category);
    LineStepsAppend(a, [x], category);
    assert LineSteps([x], category) == [Stop(NotAnObject)];
    ScanStop(LineSteps(a, category), NotAnObject, LineSteps(b, category));
  }

  /** A file of complete records loads every one of them, in order, each with its own number and JSON path. */
  lemma {:induction false} CompleteRecordsAllLoaded(lines: seq<Line>, category: string)
    requires forall i :: 0 <= i < |lines| ==> lines[i].Some? && lines[i].value.Obj? && CompleteRecord(lines[i].value.fields)
    ensures |LoadLines(lines, category)| == |lines|
    ensures forall i :: 0 <= i < |lines| ==>
              && LoadLines(lines, category)[i].publicationNumber == GetOrNull(lines[i].value.fields, "publication_number")
              && LoadLines(lines, category)[i].jsonFilePath == GetOrNull(lines[i].value.fields, "json_file_path")
  {
    var steps := LineSteps(lines, category);
    forall i | 0 <= i < |lines|
      ensures steps[i] == ReadRecord(lines[i].value.fields, category) && steps[i].Keep?
    {
    }
    ScanAllKept(steps);
  }

  /** `image_path_str` splits back into the image list when no path contains a newline. */
  lemma {:induction false} ImagePathStrRoundTrip(p: PatentInput, category: string)
    requires Loaded(p, category)
    requires |p.absoluteImagePaths| > 0
    requires forall i :: 0 <= i < |p.absoluteImagePaths| ==> '\n' !in p.absoluteImagePaths[i]
    ensures Split(p.imagePathStr, '\n') == p.absoluteImagePaths
  {
    SplitJoin(p.absoluteImagePaths, '\n');
  }

  /** What `kickoff_for_each_async` does for one batch: return a list of results, or raise. */
  datatype BatchOutcome<R> = Returned(results: seq<R>) | Raised

  /** How `run_async` ends. */
  datatype Report =
    | NoInputs                            // the loader returned nothing: return before any batch
    | Aborted(failedBatch: nat)           // this batch raised; the except ends the whole run
    | NoResults                           // every batch ran, none returned a result
    | Verified(checks: seq<(string, bool)>) // per result: the expected output file and whether it exists

  /**
   * `Path(OUTPUT_DIR) / category / f"{publication_number}_output.json"`: the file the crew is
   * expected to write, under `output/<category>/` unless the joined name is itself absolute,
   * in which case the pathlib join discards the directory.
   */
  function ExpectedOutputFile(category: string, pub: Value): (r: string)
    ensures EndsWith(r, "_output.json")
  {
    var name := Show(pub) + "_output.json";
    var r := PathJoin(PathJoin(OutputDir, category), name);
    EndsWithChain(r, name, "_output.json");
    r
  }

  /**
   * Where the expected file lies: under `output/<category>/` for a plain category and a
   * relative publication number, and at the number's own path when the number is absolute.
   */
  lemma {:induction false} ExpectedOutputFilePlacement(category: string, pub: Value)
    ensures EndsWith(ExpectedOutputFile(category, pub), Show(pub) + "_output.json")
    ensures |category| > 0 && category[0] != '/' && !EndsWith(category, "/") && !StartsWith(Show(pub), "/") ==>
              ExpectedOutputFile(category, pub) == OutputDir + "/" + category + "/" + Show(pub) + "_output.json"
    ensures StartsWith(Show(pub), "/") ==> ExpectedOutputFile(category, pub) == Show(pub) + "_output.json"
  {
    OutputNameStart(Show(pub));
    if |category| > 0 && category[0] != '/' && !EndsWith(category, "/") {
      OutputBase(category);
    }
  }

  /** A suffix of a suffix is a suffix. */
  lemma {:induction false} EndsWithChain(a: string, b: string, c: string)
    requires EndsWith(a, b)
    requires EndsWith(b, c)
    ensures EndsWith(a, c)
  {
    assert a[|a| - |c|..] == a[|a| - |b|..][|b| - |c|..];
  }

  /** The file name is absolute exactly when the publication number's text is. */
  lemma {:induction false} OutputNameStart(stem: string)
    ensures var name := stem + "_output.json";
            |name| > 0 && (name[0] == '/' <==> StartsWith(stem, "/"))
  {
    var name := stem + "_output.json";
    if |stem| > 0 {
      assert name[0] == stem[0];
      assert StartsWith(stem, "/") <==> stem[..1] == "/";
    } else {
      assert name[0] == '_';
    }
  }

  /** The category directory is `output/<category>`, with no trailing slash. */
  lemma {:induction false} OutputBase(category: string)
    requires |category| > 0 && category[0] != '/' && !EndsWith(category, "/")
    ensures PathJoin(OutputDir, category) == OutputDir + "/" + category
    ensures !EndsWith(OutputDir + "/" + category, "/")
  {
    var base := OutputDir + "/" + category;
    assert base[|base| - 1] == category[|category| - 1];
    assert category[|category| - 1..] == [category[|category| - 1]];
    assert base[|base| - 1..] == [base[|base| - 1]];
  }

  /** All results of the batches, in batch order, when none of them raised. */
  function Collected<R>(batches: seq<seq<Fields>>, execute: (nat, seq<Fields>) -> BatchOutcome<R>): seq<R>
    requires forall k :: 0 <= k < |batches| ==> execute(k, batches[k]).Returned?
  {
    if |batches| == 0 then []
    else Collected(batches[..|batches| - 1], execute) + execute(|batches| - 1, batches[|batches| - 1]).results
  }

  /** How the batch loop ends: every batch returned, or batch `k` raised and the loop was left. */
  datatype LoopOutcome<R> = Completed(results: seq<R>) | FailedAt(k: nat)

  /** The `for batch_idx, batch in enumerate(batches)` loop inside the single try of `run_async`. */
  method RunBatches<R>(batches: seq<seq<Fields>>, execute: (nat, seq<Fields>) -> BatchOutcome<R>)
    returns (o: LoopOutcome<R>)
    ensures o.FailedAt? ==>
              && o.k < |batches|
              && execute(o.k, batches[o.k]).Raised?
              && forall k :: 0 <= k < o.k ==> execute(k, batches[k]).Returned?
    ensures o.Completed? ==>
              && (forall k :: 0 <= k < |batches| ==> execute(k, batches[k]).Returned?)
              && o.results == Collected(batches, execute)
  {
    var allResults: seq<R> := [];
    var batchIdx := 0;
    while batchIdx < |batches|
      invariant batchIdx <= |batches|
      invariant forall k :: 0 <= k < batchIdx ==> execute(k, batches[k]).Returned?
      invariant allResults == Collected(batches[..batchIdx], execute)
    {
      var outcome := execute(batchIdx, batches[batchIdx]);
      if outcome.Raised? {
        return FailedAt(batchIdx);
      }
      assert batches[..batchIdx + 1][..batchIdx] == batches[..batchIdx];
      allResults := allResults + outcome.results;
      batchIdx := batchIdx + 1;
    }
    assert batches[..batchIdx] == batches;
    o := Completed(allResults);
  }

  /** The check made for one input: its expected output file, and whether that file exists. */
  function CheckOf(category: string, outputExists: string -> bool, input: PatentInput): (string, bool) {
    var file := ExpectedOutputFile(category, input.publicationNumber);
    (file, outputExists(file))
  }

  /**
   * The verification loop `for i, result in enumerate(all_results): if i < len(inputs): ...`:
   * one check per result that has an input at the same position.
   */
  function CheckOutputs(inputs: seq<PatentInput>, resultCount: nat, category: string, outputExists: string -> bool)
    : (checks: seq<(string, bool)>)
    ensures |checks| == Min(resultCount, |inputs|)
    ensures forall i :: 0 <= i < |checks| ==>
              var file := ExpectedOutputFile(category, inputs[i].publicationNumber);
              checks[i] == (file, outputExists(file))
  {
    seq(Min(resultCount, |inputs|), i requires 0 <= i < Min(resultCount, |inputs|) => CheckOf(category, outputExists, inputs[i]))
  }

  /**
   * `run_async` of the test runner. `execute` is the crew call for one batch, given
   * the batch's index; `outputExists` tells whether a path exists once the batches have run.
   */
  method RunAsync<R>(index: Option<seq<Line>>, category: string,
                     execute: (nat, seq<Fields>) -> BatchOutcome<R>, outputExists: string -> bool)
    returns (report: Report)
    ensures var inputs := LoadIndex(index, category);
            (report.NoInputs? <==> |inputs| == 0)
    ensures var inputs := LoadIndex(index, category);
            report.Aborted? ==>
              var batches := Chunk(MapSeq(inputs, ToFields), BatchSize);
              && report.failedBatch < |batches|
              && execute(report.failedBatch, batches[report.failedBatch]).Raised?
              && forall k :: 0 <= k < report.failedBatch ==> execute(k, batches[k]).Returned?
    ensures var inputs := LoadIndex(index, category);
            report.NoResults? || report.Verified? ==>
              var batches := Chunk(MapSeq(inputs, ToFields), BatchSize);
              && (forall k :: 0 <= k < |batches| ==> execute(k, batches[k]).Returned?)
              && (report.NoResults? <==> |Collected(batches, execute)| == 0)
              && (report.Verified? ==>
                    |report.checks| == Min(|Collected(batches, execute)|, |inputs|) &&
                    forall i :: 0 <= i < |report.checks| ==>
                      var file := ExpectedOutputFile(category, inputs[i].publicationNumber);
                      report.checks[i] == (file, outputExists(file)))
  {
    var inputs := LoadIndex(index, category);
    if |inputs| == 0 {
      return NoInputs;
    }
    var batches := Chunk(MapSeq(inputs, ToFields), BatchSize);
    var o := RunBatches(batches, execute);
    if o.FailedAt? {
      return Aborted(o.k);
    }
    if |o.results| == 0 {
      return NoResults;
    }
    var checks := CheckOutputs(inputs, |o.results|, category, outputExists);
    report := Verified(checks);
  }
}

=== FILE: text.dfy ===
/** String operations the scripts take from Python's `str` type, on `seq<char>`. */
module Text {
  import opened Base

  predicate StartsWith(s: string, p: string) {
    |p| <= |s| && s[..|p|] == p
  }

  predicate EndsWith(s: string, p: string) {
    |p| <= |s| && s[|s| - |p|..] == p
  }

  /** `t` occurs in `s` starting at position `i`. */
  predicate OccursAt(s: string, t: string, i: int) {
    0 <= i && i + |t| <= |s| && s[i..i + |t|] == t
  }

  lemma {:induction false} ContainsStep(s: string, t: string)
    requires 0 < |t| <= |s|
    ensures (exists i :: OccursAt(s, t, i)) <==> OccursAt(s, t, 0) || (exists j :: OccursAt(s[1..], t, j))
  {
    if exists i :: OccursAt(s, t, i) {
      var i :| OccursAt(s, t, i);
      if i > 0 {
        assert s[1..][i - 1..i - 1 + |t|] == s[i..i + |t|];
        assert OccursAt(s[1..], t, i - 1);
      }
    }
    if exists j :: OccursAt(s[1..], t, j) {
      var j :| OccursAt(s[1..], t, j);
      assert s[1..][j..j + |t|] == s[j + 1..j + 1 + |t|];
      assert OccursAt(s, t, j + 1);
    }
  }

  /** Python's `t in s` on strings, by a left-to-right scan. */
  function Contains(s: string, t: string): (r: bool)
    ensures r <==> exists i :: OccursAt(s, t, i)
    decreases |s|
  {
    if |s| < |t| then false
    else if s[..|t|] == t then
      assert OccursAt(s, t, 0);
      true
    else
      ContainsStep(s, t);
      Contains(s[1..], t)
  }

  /** Python's `s.replace(pat, rep)`: every non-overlapping occurrence, scanning left to right. */
  function ReplaceAll(s: string, pat: string, rep: string): (r: string)
    requires |pat| > 0
    ensures !Contains(s, pat) ==> r == s
    decreases |s|
  {
    if |s| < |pat| then s
    else if s[..|pat|] == pat then
      assert OccursAt(s, pat, 0);
      rep + ReplaceAll(s[|pat|..], pat, rep)
    else
      ContainsStep(s, pat);
      [s[0]] + ReplaceAll(s[1..], pat, rep)
  }

  /** The first character of `pat` does not occur again in it, so two occurrences never overlap. */
  predicate FirstCharUnique(pat: string) {
    |pat| > 0 && forall k :: 0 < k < |pat| ==> pat[k] != pat[0]
  }

  lemma {:induction false} EndsWithAfterPrefix(x: string, rep: string, tail: string)
    requires EndsWith(tail, rep)
    ensures EndsWith(x + tail, rep)
  {
    assert (x + tail)[|x + tail| - |rep|..] == tail[|tail| - |rep|..];
  }

  /** Two strings ending in suffixes that differ where the shorter one starts are different. */
  lemma {:induction false} EndingsDiffer(a: string, p: string, b: string, q: string)
    requires EndsWith(a, p) && EndsWith(b, q)
    requires 0 < |q| <= |p| && p[|p| - |q|] != q[0]
    ensures a != b
  {
    assert a[|a| - |p|..][|p| - |q|] == a[|a| - |q|];
    assert b[|b| - |q|..][0] == b[|b| - |q|];
  }

  /** Replacing a pattern whose occurrences cannot overlap turns a trailing occurrence into a trailing `rep`. */
  lemma {:induction false} ReplaceAllKeepsSuffix(s: string, pat: string, rep: string)
    requires FirstCharUnique(pat)
    requires EndsWith(s, pat)
    ensures EndsWith(ReplaceAll(s, pat, rep), rep)
    decreases |s|
  {
    if |s| == |pat| {
      assert s[..|pat|] == pat;
      assert ReplaceAll(s, pat, rep) == rep + ReplaceAll(s[|pat|..], pat, rep);
      assert ReplaceAll(s[|pat|..], pat, rep) == [];
      assert ReplaceAll(s, pat, rep) == rep;
    } else if s[..|pat|] == pat {
      // the trailing occurrence starts at |s| - |pat| > 0 with pat[0], which the prefix
      // occurrence only allows at position 0 or at |pat| and beyond
      assert s[|s| - |pat|] == pat[0];
      assert |s| - |pat| >= |pat|;
      var tail := s[|pat|..];
      assert tail[|tail| - |pat|..] == s[|s| - |pat|..];
      ReplaceAllKeepsSuffix(tail, pat, rep);
      EndsWithAfterPrefix(rep, rep, ReplaceAll(tail, pat, rep));
    } else {
      var tail := s[1..];
      assert tail[|tail| - |pat|..] == s[|s| - |pat|..];
      ReplaceAllKeepsSuffix(tail, pat, rep);
      EndsWithAfterPrefix([s[0]], rep, ReplaceAll(tail, pat, rep));
    }
  }

  /** `os.path.isabs(p)` on a POSIX system: the path starts with `/`. */
  predicate IsAbsPath(p: string) {
    |p| > 0 && p[0] == '/'
  }

  /**
   * `os.path.join(root, name)` on a POSIX system: an absolute `name` replaces `root`;
   * otherwise one `/` separates them unless `root` is empty or already ends in `/`.
   */
  function PathJoin(root: string, name: string): (r: string)
    ensures EndsWith(r, name)
    ensures |name| > 0 && name[0] == '/' ==> r == name
    ensures !(|name| > 0 && name[0] == '/') && (|root| == 0 || EndsWith(root, "/")) ==> r == root + name
    ensures !(|name| > 0 && name[0] == '/') && |root| > 0 && !EndsWith(root, "/") ==> r == root + "/" + name
  {
    if |name| > 0 && name[0] == '/' then name
    else if |root| == 0 || EndsWith(root, "/") then
      assert (root + name)[|root + name| - |name|..] == name;
      root + name
    else
      assert (root + "/" + name)[|root + "/" + name| - |name|..] == name;
      root + "/" + name
  }

  /** Position of the first `c` in `s` (Python's `s.find(c)` when found). */
  function IndexOf(s: string, c: char): (r: Option<nat>)
    ensures r.Some? ==> r.value < |s| && s[r.value] == c && c !in s[..r.value]
    ensures r.None? ==> c !in s
  {
    if |s| == 0 then None
    else if s[0] == c then Some(0)
    else match IndexOf(s[1..], c)
      case None => None
      case Some(i) =>
        assert s[..i + 1] == [s[0]] + s[1..][..i];
        Some(i + 1)
  }

  /** Position of the last `c` in `s` (Python's `s.rfind(c)` when found). */
  function LastIndexOf(s: string, c: char): (r: Option<nat>)
    ensures r.Some? ==> r.value < |s| && s[r.value] == c && c !in s[r.value + 1..]
    ensures r.None? ==> c !in s
  {
    if |s| == 0 then None
    else if s[|s| - 1] == c then Some(|s| - 1)
    else match LastIndexOf(s[..|s| - 1], c)
      case None =>
        assert s == s[..|s| - 1] + [s[|s| - 1]];
        None
      case Some(i) =>
        assert s[i + 1..] == s[..|s| - 1][i + 1..] + [s[|s| - 1]];
        Some(i)
  }

  /** Python's `sep.join(parts)`. */
  function Join(sep: string, parts: seq<string>): string
  {
    if |parts| == 0 then ""
    else if |parts| == 1 then parts[0]
    else parts[0] + sep + Join(sep, parts[1..])
  }

  /** Python's `s.split(c)` for a one-character separator. */
  function Split(s: string, c: char): (r: seq<string>)
    ensures |r| > 0
    ensures forall i :: 0 <= i < |r| ==> c !in r[i]
    decreases |s|
  {
    match IndexOf(s, c)
    case None => [s]
    case Some(i) => [s[..i]] + Split(s[i + 1..], c)
  }

  /** The first `c` in `p + [c] + t` is the one after `p` when `p` has none. */
  lemma {:induction false} IndexOfFirst(p: string, c: char, t: string)
    requires c !in p
    ensures IndexOf(p + [c] + t, c) == Some(|p|)
    ensures (p + [c] + t)[..|p|] == p && (p + [c] + t)[|p| + 1..] == t
  {
    var s := p + [c] + t;
    assert s[..|p|] == p;
    assert s[|p| + 1..] == t;
    assert forall j :: 0 <= j < |p| ==> s[j] == p[j];
    assert forall k :: |p| < k <= |s| ==> s[..k][|p|] == c;
  }

  /** The last `c` in `p + [c] + t` is the one before `t` when `t` has none. */
  lemma {:induction false} LastIndexOfLast(p: string, c: char, t: string)
    requires c !in t
    ensures LastIndexOf(p + [c] + t, c) == Some(|p|)
    ensures (p + [c] + t)[..|p|] == p && (p + [c] + t)[|p|..] == [c] + t
    decreases |t|
  {
    var s := p + [c] + t;
    assert s[..|p|] == p;
    assert s[|p|..] == [c] + t;
    if |t| > 0 {
      var t' := t[..|t| - 1];
      assert s[..|s| - 1] == p + [c] + t';
      assert s[|s| - 1] == t[|t| - 1];
      LastIndexOfLast(p, c, t');
    }
  }

  /** Joining with a separator that no part contains can be undone by splitting. */
  lemma {:induction false} SplitJoin(parts: seq<string>, c: char)
    requires |parts| > 0
    requires forall i :: 0 <= i < |parts| ==> c !in parts[i]
    ensures Split(Join([c], parts), c) == parts
    decreases |parts|
  {
    if |parts| == 1 {
      assert Join([c], parts) == parts[0];
    } else {
      var rest := Join([c], parts[1..]);
      var s := Join([c], parts);
      assert s == parts[0] + [c] + rest;
      IndexOfFirst(parts[0], c, rest);
      assert Split(s, c) == [parts[0]] + Split(rest, c);
      SplitJoin(parts[1..], c);
      assert parts == [parts[0]] + parts[1..];
    }
  }

  /** Splitting and joining back with the same separator gives the original string. */
  lemma {:induction false} JoinSplit(s: string, c: char)
    ensures Join([c], Split(s, c)) == s
    decreases |s|
  {
    match IndexOf(s, c)
    case None =>
    case Some(i) =>
      JoinSplit(s[i + 1..], c);
      var rest := Split(s[i + 1..], c);
      assert Split(s, c) == [s[..i]] + rest;
      assert (([s[..i]] + rest)[1..]) == rest;
      assert s == s[..i] + [c] + s[i + 1..];
  }

  function LowerChar(c: char): char {
    if 'A' <= c <= 'Z' then (c as int + 32) as char else c
  }

  /** Python's `s.lower()` restricted to ASCII letters. */
  function Lower(s: string): (r: string)
    ensures |r| == |s|
    ensures forall i :: 0 <= i < |s| ==> r[i] == LowerChar(s[i])
  {
    seq(|s|, i requires 0 <= i < |s| => LowerChar(s[i]))
  }

  lemma {:induction false} LowerCons(c: char, s: string)
    ensures Lower([c] + s) == [LowerChar(c)] + Lower(s)
  {
    var l, ls := Lower([c] + s), Lower(s);
    forall i | 0 <= i < |l|
      ensures l[i] == ([LowerChar(c)] + ls)[i]
    {
      if i > 0 {
        assert ([c] + s)[i] == s[i - 1];
      }
    }
  }

  predicate IsDigitChar(c: char) {
    '0' <= c <= '9'
  }

  /** Python's `s.isdigit()` for ASCII digits: non-empty and every character a digit. */
  predicate IsDigits(s: string) {
    |s| > 0 && forall i :: 0 <= i < |s| ==> IsDigitChar(s[i])
  }

  function DigitChar(d: nat): (c: char)
    requires d < 10
    ensures IsDigitChar(c)
  {
    ('0' as int + d) as char
  }

  function DigitValue(c: char): nat
    requires IsDigitChar(c)
  {
    c as int - '0' as int
  }

  /** Decimal rendering of a natural number, as `str(n)` writes it. */
  function NatToString(n: nat): (r: string)
    ensures IsDigits(r)
    decreases n
  {
    if n < 10 then [DigitChar(n)] else NatToString(n / 10) + [DigitChar(n % 10)]
  }

  /** Decimal rendering of an integer, with a leading `-` when negative. */
  function IntToString(n: int): string {
    if n < 0 then "-" + NatToString(-n) else NatToString(n)
  }

  /** The value of a string of decimal digits (leading zeros allowed; the empty string is 0). */
  function ParseDecimal(s: string): nat
    requires forall i :: 0 <= i < |s| ==> IsDigitChar(s[i])
  {
    if |s| == 0 then 0 else ParseDecimal(s[..|s| - 1]) * 10 + DigitValue(s[|s| - 1])
  }

  /** Left-pads `s` with `0` up to `width` characters, as the `:0Nd` format does. */
  function ZeroPad(s: string, width: nat): (r: string)
    ensures |r| == if |s| >= width then |s| else width
    ensures forall i :: 0 <= i < |r| - |s| ==> r[i] == '0'
    ensures r[|r| - |s|..] == s
    decreases width - |s|
  {
    if |s| >= width then s else ZeroPad("0" + s, width)
  }

  /** Python's `f"{n:03d}"` for a natural number. */
  function Format03(n: nat): string {
    ZeroPad(NatToString(n), 3)
  }

  lemma {:induction false} ParseNatToString(n: nat)
    ensures ParseDecimal(NatToString(n)) == n
    decreases n
  {
    if n >= 10 {
      var s := NatToString(n);
      assert s[..|s| - 1] == NatToString(n / 10);
      ParseNatToString(n / 10);
    }
  }

  lemma {:induction false} ParseLeadingZero(s: string)
    requires forall i :: 0 <= i < |s| ==> IsDigitChar(s[i])
    ensures ParseDecimal("0" + s) == ParseDecimal(s)
    decreases |s|
  {
    if |s| > 0 {
      var t := "0" + s;
      assert t[..|t| - 1] == "0" + s[..|s| - 1];
      ParseLeadingZero(s[..|s| - 1]);
    }
  }

  lemma {:induction false} ParseZeroPad(s: string, width: nat)
    requires forall i :: 0 <= i < |s| ==> IsDigitChar(s[i])
    ensures forall i :: 0 <= i < |ZeroPad(s, width)| ==> IsDigitChar(ZeroPad(s, width)[i])
    ensures ParseDecimal(ZeroPad(s, width)) == ParseDecimal(s)
    decreases width - |s|
  {
    if |s| < width {
      ParseLeadingZero(s);
      ParseZeroPad("0" + s, width);
    }
  }

  /** A three-digit zero-padded number reads back as the same number, so distinct numbers get distinct labels. */
  lemma {:induction false} Format03RoundTrip(n: nat)
    ensures forall i :: 0 <= i < |Format03(n)| ==> IsDigitChar(Format03(n)[i])
    ensures ParseDecimal(Format03(n)) == n
    ensures n < 1000 ==> |Format03(n)| == 3
  {
    ParseZeroPad(NatToString(n), 3);
    ParseNatToString(n);
    if n < 1000 {
      NatToStringShort(n);
    }
  }

  /** Different numbers are formatted differently. */
  lemma {:induction false} Format03Injective(a: nat, b: nat)
    ensures Format03(a) == Format03(b) ==> a == b
  {
    Format03RoundTrip(a);
    Format03RoundTrip(b);
  }

  /** A common prefix does not make different strings equal. */
  lemma {:induction false} PrefixInjective(p: string, a: string, b: string)
    ensures p + a == p + b ==> a == b
  {
    assert (p + a)[|p|..] == a;
    assert (p + b)[|p|..] == b;
  }

  lemma {:induction false} NatToStringShort(n: nat)
    requires n < 1000
    ensures |NatToString(n)| <= 3
  {
    if n >= 10 {
      if n >= 100 {
        assert NatToString(n / 10) == NatToString(n / 100) + [DigitChar((n / 10) % 10)];
      }
    }
  }
}
